=== FILE: README.md ===
# link2symlink: hard links emulated with symbolic links

PRoot's `link2symlink` extension lets a guest create hard links where the host
refuses them. It fakes each hard link as a chain of symbolic links:

    alias  ->  <dir>/.l2s.<base>NNNN  ->  <dir>/.l2s.<base>NNNN.CCCC

The first hop is an *alias*: the user-visible name. The second is the
*intermediate*: a hidden link whose basename starts with the marker `.l2s.` and
ends in a four-digit disambiguator `NNNN`. The last is the *final node*: the
regular file holding the content. The last four characters `CCCC` of its name
carry the link count.

This project models the extension's core in Dafny:

- the string helpers: basename, the marker test, the intermediate name,
  `printf("%04d")` and `atoi` of the last four characters;
- the filesystem, as an immutable `map<string, Node>`, with `lstat`, `readlink`,
  `access`, `rename`, `symlink` and `unlink` as total functions that may fail;
- `my_readlink`;
- `move_and_symlink_path` (**Grow**), the work done before `link()`/`linkat()`;
- `decrement_link_count` (**Shrink**), the work done before `unlink()`,
  `unlinkat()`, `rename()` and `renameat()`;
- the link-count patch of `handle_sysexit_end`, reduced to which node's name
  supplies `st_nlink`;
- the two-hop resolver `translated_path`;
- the per-syscall dispatch of `link2symlink_callback`.

Modules follow the source's structure:

- `Errors`: a small errno enumeration and `Result`.
- `Names`: the pure string side.
- `FileSystem`: nodes, the map, and the system calls.
- `Chain`: the chain invariant `ChainAt` and the count change shared by Grow and
  Shrink.
- `Grower`, `Shrinker`, `StatPatch`, `Resolver`: the four transitions.
- `Dispatch`: the callback's three events.
- `Scenarios`: whole syscalls, made of the callback's entry work, the kernel's
  effect on the rewritten call, and the exit patch.

Grow and Shrink return the filesystem together with the result even on failure.
A step that fails half-way keeps the steps done before it, as the C does.

Where a C function returns the raw `-1` of a failed system call, its caller
reads it as the errno value 1, so the model reports `NotPermitted` (EPERM).
This applies to `my_readlink` on a failed `readlink`, to the rename, unlink and
symlink steps of `decrement_link_count`, and to the `lstat` of the final node in
`handle_sysexit_end`. The comment above `my_readlink` says it returns `-errno`;
the code returns `readlink`'s own `-1`, and the model follows the code.

C undefined behaviour is reported as the error `UndefinedBehaviour`. This covers:

- `atoi` on a final name shorter than four characters;
- the `" (deleted)"` test on a descriptor path shorter than the suffix;
- the status fields read after a failed `lstat` in `handle_sysexit_end`;
- the two buffer overflows of the first-link branch listed under "## Findings".
  An original of 4082 to 4085 characters passes the length test at line 92 and
  overflows `final` at lines 115-116. A link target of 4087 to 4095 characters
  meets no length test at all: it overflows `final` at line 116, and from 4092
  characters `new_intermediate` at line 110 as well. The model reports both as
  `NameTooLong` instead (see Grower.FirstLink under "## Left out").

## Model

| member | source | states |
|---|---|---|
| Names.Basename | src/extension/link2symlink/link2symlink.c:95-99 | The result is a suffix of the path with no '/', and is preceded by a '/' unless it is the whole path. |
| Names.DirPart | src/extension/link2symlink/link2symlink.c:100-104 | Directory part plus basename gives the path back, and the directory part is empty or ends in '/'. |
| Names.IntermediateBase | src/extension/link2symlink/link2symlink.c:95-104 | The intermediate's base has the marker followed by the original basename as its basename, so it is marked, and it is exactly five characters longer than the original. |
| Names.GuardAsWrittenOverflows | src/extension/link2symlink/link2symlink.c:92-93 | Some original passes the length test as written while its final-node name does not fit a PATH_MAX buffer. |
| Names.ChainNamesFitBounds | src/extension/link2symlink/link2symlink.c:109-117 | Under the corrected test, every intermediate (disambiguator 1..999) and every final name (count 0..9999) fits a PATH_MAX buffer. |
| Names.Format4Length | src/extension/link2symlink/link2symlink.c:110 | `%04d` renders every value from -999 to 9999 in exactly four characters. |
| Names.AtoiOfFourChars | src/extension/link2symlink/link2symlink.c:213 | atoi of any four characters lies between -999 and 9999. |
| Names.AtoiFormat4 | src/extension/link2symlink/link2symlink.c:213-221 | Reading back with atoi what `%04d` wrote gives the number again, for every value from -999 to 9999. |
| Names.Format4Injective | src/extension/link2symlink/link2symlink.c:136-140 | Different counts render to different four-character fields, so a count change always picks a new name. |
| Names.FinalNameFacts | src/extension/link2symlink/link2symlink.c:136-140 | A final name carries its count in its last four characters and stays marked. Replacing those four characters yields the final name of the new count, and a different count gives a different name. |
| Names.CountPastField | src/extension/link2symlink/link2symlink.c:136-140 | A count of 10000 does not fit the four-character field; the name's last four characters then read back as 0. |
| FileSystem.Lstat | src/extension/link2symlink/link2symlink.c:69-73 | lstat succeeds exactly on existing names that fit PATH_MAX, returning the node itself; otherwise ENOENT or ENAMETOOLONG. |
| FileSystem.ReadlinkBounded | src/extension/link2symlink/link2symlink.c:26-38 | my_readlink succeeds exactly on links whose own name fits PATH_MAX and whose target fits the buffer, and returns that target. A target filling the buffer gives ENAMETOOLONG; a failed readlink gives the raw -1, i.e. EPERM. |
| FileSystem.Rename | src/extension/link2symlink/link2symlink.c:117 | rename succeeds exactly when both names fit PATH_MAX, the source exists and a directory does not meet a non-directory. The node then moves and replaces any destination. |
| FileSystem.CreateSymlink | src/extension/link2symlink/link2symlink.c:122 | symlink succeeds exactly when the link name is free, both names fit and the target is non-empty. It adds only that link. |
| FileSystem.Unlink | src/extension/link2symlink/link2symlink.c:237-242 | unlink succeeds exactly on an existing non-directory whose name fits PATH_MAX, and removes only that name. |
| FileSystem.Follow | src/extension/link2symlink/link2symlink.c:112 | access(F_OK) follows links up to 40 hops and never ends on a link. An existing non-link is found at once, a missing or over-long name is not found, and a link is looked through to its target (relative targets from the link's directory), or gives ELOOP once the hops are spent. |
| FileSystem.AccessibleThroughLink | src/extension/link2symlink/link2symlink.c:112 | A link whose target exists as a file or directory is accessible; a link whose target is missing or over-long is not. |
| Chain.MoveFinal | src/extension/link2symlink/link2symlink.c:136-152 | A successful count change leaves the intermediate pointing at the new final name, and that name holds the old final node's content. The resulting map is the old one with the final node moved and the intermediate re-pointed, and nothing else changed. |
| Chain.MoveFinalOnChain | src/extension/link2symlink/link2symlink.c:136-152 | On a chain, moving the final node to a free name of another count succeeds. Only the final node's name and the intermediate's target change, the alias is untouched, and the chain invariant holds with the new count. |
| Chain.RecountFacts | src/extension/link2symlink/link2symlink.c:136-140 | On a chain, the name of another count is new, fits, differs from every chain name, and is what the four-character rewrite produces. |
| Chain.RecountKeepsAliases | src/extension/link2symlink/link2symlink.c:136-152 | A count change leaves the set of aliases of the intermediate exactly as it was. |
| Grower.Probe | src/extension/link2symlink/link2symlink.c:109-113 | The disambiguator is the first value from 1 on whose candidate access() cannot find, or 999 when all of 1..998 are taken. Every candidate it skips exists. |
| Grower.ProbeSettlesOn999 | src/extension/link2symlink/link2symlink.c:109-113 | When every candidate is taken the loop settles on 999 anyway, with no exhaustion error. |
| Grower.FirstLink | src/extension/link2symlink/link2symlink.c:92-129 | An over-long name is refused with ENAMETOOLONG before any change. On success the intermediate is the base plus the probed disambiguator, and the map changes as the three first-link steps say. |
| Grower.LinkFresh | src/extension/link2symlink/link2symlink.c:115-129 | On success the original's node moves to intermediate + ".0002", the intermediate links to it, and the original links to the intermediate. No other name changes, and the result is the intermediate. |
| Grower.GrowChain | src/extension/link2symlink/link2symlink.c:131-152 | On success the result is the intermediate, re-pointed to the final name whose last four characters now hold count + 1. The final node's content moves to that name, and no other entry of the map changes. |
| Grower.Grow | src/extension/link2symlink/link2symlink.c:46-160 | A failing lstat passes its error on with no change, and a directory gives EPERM with no change. A successful call returns a name that is a symbolic link afterwards. |
| Grower.GrowOnFile | src/extension/link2symlink/link2symlink.c:76-104 | A regular file takes the first-link branch, with the base built from its own name. |
| Grower.GrowFirstLinkNaming | src/extension/link2symlink/link2symlink.c:92-113 | On a regular file the intermediate is directory part + ".l2s." + basename + the probed disambiguator. A name too long for the buffers is refused before any change. |
| Grower.GrowFirstLinkOnFile | src/extension/link2symlink/link2symlink.c:107-129 | On a regular file whose chosen names are free, the first link succeeds and leaves a chain of count 2. Content moves to the final node, intermediate and original become links, nothing else changes, and the intermediate is returned. |
| Grower.FirstLinkChain | src/extension/link2symlink/link2symlink.c:107-129 | With free names that fit, the first-link branch returns the probed intermediate and establishes the chain invariant with count 2. |
| Grower.LinkFreshChain | src/extension/link2symlink/link2symlink.c:115-129 | The three first-link steps on free, fitting names succeed and leave a chain of count 2. |
| Grower.LinkFreshSucceeds | src/extension/link2symlink/link2symlink.c:115-129 | The three first-link steps succeed when the names they create are free. |
| Grower.LinkFreshOverTakenNames | src/extension/link2symlink/link2symlink.c:115-125 | When the chosen names are taken, the rename overwrites the existing final name and creating the intermediate fails with EEXIST. The moved content stays where the rename put it. |
| Grower.UnguardedTargetOverflows | src/extension/link2symlink/link2symlink.c:76-89 | The branch for a link to an unmarked target has no length test. In a one-link map, my_readlink accepts a 4095-character unmarked target and the probe settles on 1. The intermediate name built from it then overflows a PATH_MAX buffer, where the model refuses with ENAMETOOLONG. |
| Grower.GrowThroughForeignSymlink | src/extension/link2symlink/link2symlink.c:76-93 | A link to an unmarked target gets a first link whose intermediate is built from the raw target, not from the source's name. A target too long for the derived names is refused before any change, as the corrected length test requires. |
| Grower.GrowOnAlias | src/extension/link2symlink/link2symlink.c:76-89 | A link to a marked target takes the existing-chain branch on that target. |
| Grower.GrowExistingChain | src/extension/link2symlink/link2symlink.c:131-152 | Through an alias of a chain of count c, the final node is renamed so only its last four characters change, to c + 1. The intermediate is re-pointed, the alias and every other name keep their nodes, and the chain invariant holds with c + 1. |
| Shrinker.Shrink | src/extension/link2symlink/link2symlink.c:168-207 | An over-long path gives ENAMETOOLONG. A missing path, a non-link, and a link to an unmarked target each return success with the map unchanged. Any error is EPERM, ENAMETOOLONG or undefined behaviour. |
| Shrinker.ShrinkChain | src/extension/link2symlink/link2symlink.c:209-243 | Errors after the alias is recognised are EPERM, ENAMETOOLONG or undefined behaviour. On success the intermediate was a link to a final name of at least four characters. When the count read from it minus one is still positive, the final node moved to the name with that count and the intermediate was re-pointed there; otherwise the intermediate and the final node were both removed. Nothing else in the map changed. |
| Shrinker.Dissolve | src/extension/link2symlink/link2symlink.c:235-243 | Removing the chain succeeds exactly when both nodes exist, fit and are not directories, and are different names. It removes exactly those two names; a failure is EPERM. |
| Shrinker.ShrinkOnAlias | src/extension/link2symlink/link2symlink.c:188-211 | On a link to a marked target Shrink works on that target's chain. |
| Shrinker.ShrinkChainDecrements | src/extension/link2symlink/link2symlink.c:213-234 | On a chain of count c >= 2, the final node moves to the name of c - 1 and the intermediate is re-pointed. The alias is untouched and the chain invariant holds with c - 1. |
| Shrinker.ShrinkChainDissolves | src/extension/link2symlink/link2symlink.c:235-243 | On a chain of count 1 or less, exactly the intermediate and the final node are removed, and the alias survives. |
| Shrinker.GrowThenShrinkRestores | src/extension/link2symlink/link2symlink.c:131-152 | Grow then Shrink through the same alias gives back the very map it started from, final name included. |
| Shrinker.RecountBack | src/extension/link2symlink/link2symlink.c:213-234 | After a count increase the old final name is free again, and moving the final node back restores the earlier map. |
| StatPatch.StripDeleted | src/extension/link2symlink/link2symlink.c:284-285 | A trailing " (deleted)" is removed and the result is otherwise the path itself. A path shorter than the suffix is undefined behaviour. |
| StatPatch.Nlink | src/extension/link2symlink/link2symlink.c:300-343 | A failing lstat is undefined behaviour, and an unmarked non-link is left unchanged. Any replacement comes from an existing node whose name carries the reported count, reached from a marked path or from a link to a marked target. |
| StatPatch.FromIntermediate | src/extension/link2symlink/link2symlink.c:335-343 | A replacement comes from the node the intermediate names, with the count its name carries. |
| StatPatch.FromFinal | src/extension/link2symlink/link2symlink.c:339-343 | Succeeds exactly when the final node's name fits PATH_MAX, the node exists and its name has four characters to read. The reported count is atoi of those four; a failed lstat gives EPERM. |
| StatPatch.NlinkOnChain | src/extension/link2symlink/link2symlink.c:300-343 | On a chain of count c, the unmarked alias, the intermediate and the final node all report the final node with link count c. |
| StatPatch.NlinkOfFinal | src/extension/link2symlink/link2symlink.c:309-317 | A marked non-link is taken as a final node and reports its own count. |
| StatPatch.NlinkOfIntermediate | src/extension/link2symlink/link2symlink.c:309-317 | A marked link is taken as an intermediate, and the count is read from its target. |
| StatPatch.NlinkOfAlias | src/extension/link2symlink/link2symlink.c:319-343 | An unmarked link to a marked link reaches the final node in two readlinks. |
| StatPatch.NlinkOnMarkedAlias | src/extension/link2symlink/link2symlink.c:309-317 | A marked alias is mistaken for an intermediate, and the count is read from the intermediate's name. |
| StatPatch.NlinkPassesForeignLink | src/extension/link2symlink/link2symlink.c:322-333 | An unmarked link to an unmarked target passes through unchanged. |
| Resolver.Translate | src/extension/link2symlink/link2symlink.c:369-404 | The path is replaced by the target of its target only when both readlinks succeed and the first target holds a '/' and a marked basename. Otherwise it is kept. |
| Resolver.TranslateOnChain | src/extension/link2symlink/link2symlink.c:376-402 | On a chain whose intermediate holds a '/', an alias resolves to the final node; the intermediate resolves to itself. |
| Resolver.TranslateRelativeAlias | src/extension/link2symlink/link2symlink.c:380-382 | An alias whose intermediate has no '/' is not resolved. |
| Resolver.TranslateSettles | src/extension/link2symlink/link2symlink.c:376-402 | Resolving twice gives the same as resolving once on a chain. |
| Dispatch.OnEnter | src/extension/link2symlink/link2symlink.c:442-540 | Removing calls run Shrink on the path they destroy and then go on unchanged. link and linkat run Grow on their source and become symlink from the intermediate to the new path. Failures refuse the call, and every other call passes untouched. |
| Dispatch.SymlinkCall | src/extension/link2symlink/link2symlink.c:492-534 | The rewritten request is symlink(2) whose first register is the intermediate and whose second is the new path: the second register of link(), the fourth of linkat(). |
| Dispatch.OnTranslatedPath | src/extension/link2symlink/link2symlink.c:546-571 | The seven link, unlink and rename calls never have their path translated. Any other path changes only through the resolver. |
| Dispatch.StatPath | src/extension/link2symlink/link2symlink.c:282-297 | fstat calls use the descriptor's path minus " (deleted)", and fail if that path cannot be read. The at-variants and statx use the second argument, the others the first; an over-long path gives ENAMETOOLONG. |
| Dispatch.OnExit | src/extension/link2symlink/link2symlink.c:277-343 | Only a stat-family call that returned 0 is patched. It is then patched exactly as Nlink says for its path, and a path error is passed on. |
| Scenarios.LinkOnAlias | src/extension/link2symlink/link2symlink.c:492-507 | link(alias, newpath) on a chain of count c grows the chain to c + 1 and becomes symlink(intermediate, newpath). |
| Scenarios.NewAlias | src/extension/link2symlink/link2symlink.c:492-507 | The kernel's symlink of the rewritten call adds a second alias that reaches the same chain, and the old alias still does. |
| Scenarios.LinkSyscall | src/extension/link2symlink/link2symlink.c:492-507 | link(alias, newpath) followed by the kernel's symlink grows the chain to c + 1 and adds newpath as a link to the intermediate; nothing else changes. |
| Scenarios.UnlinkNewAlias | src/extension/link2symlink/link2symlink.c:466-477 | unlink of the alias a link created, with the kernel's removal, gives back exactly the map from before the link. |
| Scenarios.LinkThenUnlinkRestores | src/extension/link2symlink/link2symlink.c:466-507 | link through an alias, then unlink of the new name, each with the kernel's effect, gives back the starting map; both calls succeed. |
| Scenarios.LinkAddsOneAlias | src/extension/link2symlink/link2symlink.c:492-507 | A link through an alias raises the count by one and adds exactly the new name to the aliases. |
| Scenarios.UnlinkDropsOneAlias | src/extension/link2symlink/link2symlink.c:466-477 | unlink of an alias of a chain of count c >= 2 lowers the count by one and removes exactly that alias. Every remaining alias still reaches the chain. |
| Scenarios.FirstLinkThenStat | src/extension/link2symlink/link2symlink.c:492-507 | link(a, b) on a regular file makes a and b aliases of a chain of count 2. stat or lstat through either, on the path the resolver hands to the kernel, reports link count 2. Other calls through either reach the final node when the intermediate holds a '/'. |

## Left out

- Tracee plumbing is not modelled: `read_string`, `peek_reg`, `poke_reg`,
  `set_sysarg_path`, `write_data`, `set_sysnum` and `readlink_proc_pid_fd`. Path
  arguments are inputs, the rewritten call is the output, and the descriptor's
  path for `fstat` is a parameter. `read_string`'s length check is kept, as
  ENAMETOOLONG for an argument that does not fit PATH_MAX.
- The layout of `struct stat` and `struct statx`, and the choice of the stat
  buffer register (lines 346-355), are not modelled. The patch is reduced to the
  source node and its `st_nlink` value.
- The syscall filter table (lines 420-437) is tracer configuration and is not
  modelled.
- The model is single-threaded. Crashes between the rename, unlink and symlink
  steps, and the race between the disambiguator probe and the rename, are not
  modelled.
- The filesystem is a flat map of whole path strings. Parent directories, their
  children and `..` normalisation are not modelled, and paths are assumed free
  of NUL characters.
- Errors are a small enumeration, not the kernel's errno numbers.
- Dispatch.StatPath: for `fstat`, the C tests for " (deleted)" before checking
  whether the descriptor's path could be read at all. The model reports the read
  error and ignores what the test does on an unread buffer.
- StatPatch.Nlink: `st_nlink` is unsigned in the C, so a count read as negative
  would wrap. The model reports the signed `atoi` value.
- Chain.ChainAt: the chain invariant covers counts 0..9999. Names.CountPastField
  shows what a count of 10000 does to the name's last four characters. The
  chain lemmas do not follow the chain past that point.
- Grower.FirstLink: the length test is the corrected one, which requires every
  name derived from the base to fit a PATH_MAX buffer. It replaces the C's test
  at line 92 and stands in for the test missing from the link-to-unmarked-target
  branch (lines 76-89), so the overflows the C runs into are reported as
  `NameTooLong` before any change.
- Grower.Probe: access() is modelled on the map alone. A candidate that exists
  only as a dangling link counts as free, as it does for access().

## Findings

| source | as written | input that shows it | evidently intended | confidence | as-written member | corrected member |
|---|---|---|---|---|---|---|
| src/extension/link2symlink/link2symlink.c:92-93 | The first-link length test refuses an original only when strlen(".l2s.") + strlen(original) + 5 >= PATH_MAX. The final node's name is the original plus 14 characters (marker, four-digit disambiguator, ".", four-digit count), written into PATH_MAX buffers. | an original of 4085 characters passes the test, and its final name has 4099 characters | refuse any original whose longest derived name does not fit a PATH_MAX buffer with its NUL | not executed | Names.GuardAsWrittenOverflows | Names.ChainNamesFitBounds |
| src/extension/link2symlink/link2symlink.c:76-89 | For a source that links to an unmarked target, the raw target becomes the intermediate's base with no length test. "%04d" and ".0002" are then appended in PATH_MAX buffers. | a link whose target has 4095 characters: the intermediate name then has 4099 | apply the same length test as the other branch, and refuse with ENAMETOOLONG before any change | not executed | Grower.UnguardedTargetOverflows | Grower.GrowThroughForeignSymlink |

=== FILE: chain.dfy ===
/** The shape the emulation keeps on disk for one emulated hard link:
    alias -> intermediate -> final, where the final node's name ends in the count. */
module Chain {
  import opened Errors
  import opened Names
  import opened FileSystem

  /** The chain invariant. The alias is a symbolic link to the intermediate node, whose
      basename carries the marker; the intermediate is a symbolic link to the final node
      stem + "%04d"(count); the final node is the regular file holding the content. */
  predicate ChainAt(fs: Fs, alias: string, inter: string, stem: string, count: int) {
    && 0 <= count <= 9999
    && Fits(alias) && alias in fs && fs[alias] == Symlink(inter)
    && IsChainName(inter) && Fits(inter) && inter in fs
    && fs[inter] == Symlink(FinalName(stem, count))
    && IsChainName(stem)
    && Fits(FinalName(stem, count)) && FinalName(stem, count) in fs
    && fs[FinalName(stem, count)].Regular?
  }

  /** On a chain, my_readlink takes the alias to the intermediate and the intermediate to
      the final node. */
  lemma ChainReadlinks(fs: Fs, alias: string, inter: string, stem: string, count: int)
    requires ChainAt(fs, alias, inter, stem, count)
    ensures ReadlinkBounded(fs, alias) == Ok(inter)
    ensures ReadlinkBounded(fs, inter) == Ok(FinalName(stem, count))
  {
  }

  /** The set of entry aliases of a chain: every path that is a symbolic link to its intermediate. */
  function Aliases(fs: Fs, inter: string): set<string> {
    set p | p in fs && fs[p] == Symlink(inter)
  }

  /** A count change on a chain: the final node is renamed, then the intermediate is
      re-pointed by unlinking it and creating it again. A failing step returns its error
      and keeps the steps before it; on success nothing but those two names changes. */
  function MoveFinal(fs: Fs, inter: string, final: string, newFinal: string): (o: Outcome<()>)
    ensures o.result.Ok? ==> inter in o.fs && o.fs[inter] == Symlink(newFinal)
    ensures o.result.Ok? && newFinal != inter ==>
              final in fs && newFinal in o.fs && o.fs[newFinal] == fs[final]
    ensures o.result.Ok? ==>
              final in fs && o.fs == (fs - {final})[newFinal := fs[final]][inter := Symlink(newFinal)]
  {
    match Rename(fs, final, newFinal)
    case Err(e) => Outcome(fs, Err(e))
    case Ok(fs1) =>
      match Unlink(fs1, inter)
      case Err(e) => Outcome(fs1, Err(e))
      case Ok(fs2) =>
        match CreateSymlink(fs2, newFinal, inter)
        case Err(e) => Outcome(fs2, Err(e))
        case Ok(fs3) => Outcome(fs3, Ok(()))
  }

  /** On a chain of count c, moving the final node to the name for count n (a free name)
      succeeds, changes only the final node's name and the intermediate's target, and gives
      a chain of count n with the same alias and intermediate. */
  lemma MoveFinalOnChain(fs: Fs, alias: string, inter: string, stem: string, c: int, n: int)
    requires ChainAt(fs, alias, inter, stem, c)
    requires 0 <= n <= 9999 && n != c && FinalName(stem, n) !in fs
    ensures
      var final := FinalName(stem, c);
      var newFinal := FinalName(stem, n);
      var m := (fs - {final})[newFinal := fs[final]][inter := Symlink(newFinal)];
      && |final| >= 4 && CountOf(final) == c && WithCount(final, n) == newFinal
      && MoveFinal(fs, inter, final, newFinal) == Outcome(m, Ok(()))
      && ChainAt(m, alias, inter, stem, n)
      && m[alias] == fs[alias]
  {
    var final := FinalName(stem, c);
    var newFinal := FinalName(stem, n);
    RecountFacts(fs, alias, inter, stem, c, n);
    MoveFinalSucceeds(fs, inter, final, newFinal);
  }

  /** The three steps of a count change succeed when the new name is free and every name
      fits; the result is the rename followed by an overwrite of the intermediate. */
  lemma MoveFinalSucceeds(fs: Fs, inter: string, final: string, newFinal: string)
    requires Fits(final) && Fits(newFinal) && Fits(inter) && |newFinal| > 0
    requires final in fs && !fs[final].Dir? && newFinal !in fs && inter in fs && !fs[inter].Dir?
    requires final != newFinal && inter != final && inter != newFinal
    ensures MoveFinal(fs, inter, final, newFinal)
              == Outcome((fs - {final})[newFinal := fs[final]][inter := Symlink(newFinal)], Ok(()))
  {
    var fs1 := (fs - {final})[newFinal := fs[final]];
    assert Rename(fs, final, newFinal) == Ok(fs1);
    var fs2 := fs1 - {inter};
    assert Unlink(fs1, inter) == Ok(fs2);
    var fs3 := fs2[inter := Symlink(newFinal)];
    assert CreateSymlink(fs2, newFinal, inter) == Ok(fs3);
    RemoveThenSet(fs1, inter, Symlink(newFinal));
  }

  /** Unlinking a name and creating it again is the same as overwriting it. */
  lemma RemoveThenSet(m: Fs, k: string, v: Node)
    ensures (m - {k})[k := v] == m[k := v]
  {
  }

  /** On a chain, the name with another count has the same length, is a different name,
      and is what WithCount produces; the alias, intermediate and final are distinct. */
  lemma RecountFacts(fs: Fs, alias: string, inter: string, stem: string, c: int, n: int)
    requires ChainAt(fs, alias, inter, stem, c)
    requires 0 <= n <= 9999 && n != c && FinalName(stem, n) !in fs
    ensures
      var final := FinalName(stem, c);
      var newFinal := FinalName(stem, n);
      && |final| >= 4 && CountOf(final) == c
      && WithCount(final, n) == newFinal && Fits(newFinal)
      && final != newFinal && alias != final && alias != newFinal && inter != final
      && inter != newFinal && alias != inter
      && var m := (fs - {final})[newFinal := fs[final]][inter := Symlink(newFinal)];
         && ChainAt(m, alias, inter, stem, n)
         && m[alias] == fs[alias]
  {
    FinalNameFacts(stem, c, n);
    FinalNameFacts(stem, n, c);
    var final := FinalName(stem, c);
    var newFinal := FinalName(stem, n);
    assert alias != inter;
    RecountLookups(fs, alias, inter, final, newFinal);
  }

  /** What a rename of the final node plus a re-pointed intermediate leave at each name. */
  lemma RecountLookups(fs: Fs, alias: string, inter: string, final: string, newFinal: string)
    requires final in fs && alias in fs
    requires final != newFinal && alias != final && alias != newFinal && inter != final
    requires inter != newFinal && alias != inter
    ensures
      var m := (fs - {final})[newFinal := fs[final]][inter := Symlink(newFinal)];
      && alias in m && m[alias] == fs[alias]
      && inter in m && m[inter] == Symlink(newFinal)
      && newFinal in m && m[newFinal] == fs[final]
  {
  }

  /* ---------------------------------------------------------------- aliases */

  /** Renaming the final node and re-pointing the intermediate leave the set of aliases as it
      was: neither chain node is a link to the intermediate, before or after. */
  lemma RecountKeepsAliases(fs: Fs, inter: string, final: string, newFinal: string)
    requires inter in fs && fs[inter] == Symlink(final) && final != inter && newFinal != inter
    requires final in fs && fs[final].Regular? && newFinal !in fs
    ensures Aliases((fs - {final})[newFinal := fs[final]][inter := Symlink(newFinal)], inter)
              == Aliases(fs, inter)
  {
    var m := (fs - {final})[newFinal := fs[final]][inter := Symlink(newFinal)];
    forall p | p in Aliases(m, inter)
      ensures p in Aliases(fs, inter)
    {
      assert p != inter && p != newFinal;
    }
    forall p | p in Aliases(fs, inter)
      ensures p in Aliases(m, inter)
    {
      assert p != inter && p != final && p != newFinal;
    }
  }

  /** A new link to the intermediate adds exactly that path to the aliases. */
  lemma NewLinkAddsAlias(fs: Fs, inter: string, newpath: string)
    requires newpath !in fs
    ensures Aliases(fs[newpath := Symlink(inter)], inter) == Aliases(fs, inter) + {newpath}
  {
  }

  /** Removing an alias takes exactly that path out of the aliases. */
  lemma UnlinkDropsAlias(fs: Fs, inter: string, p: string)
    requires p in Aliases(fs, inter)
    ensures Aliases(fs - {p}, inter) == Aliases(fs, inter) - {p}
  {
  }

  /** Taking a free name keeps every chain: its three names are all taken already. */
  lemma ChainAtAfterAdd(fs: Fs, alias: string, inter: string, stem: string, c: int, p: string, n: Node)
    requires ChainAt(fs, alias, inter, stem, c) && p !in fs
    ensures ChainAt(fs[p := n], alias, inter, stem, c)
  {
    var final := FinalName(stem, c);
    KeptAfterAdd(fs, p, n, alias);
    KeptAfterAdd(fs, p, n, inter);
    KeptAfterAdd(fs, p, n, final);
  }

  /** An entry present before a free name is taken is still there, unchanged. */
  lemma KeptAfterAdd(fs: Fs, p: string, n: Node, q: string)
    requires q in fs && p !in fs
    ensures q in fs[p := n] && fs[p := n][q] == fs[q]
  {
  }

  /** A new link to the intermediate is one more entry to the same chain. */
  lemma NewLinkIsAlias(fs: Fs, alias: string, inter: string, stem: string, c: int, p: string)
    requires ChainAt(fs, alias, inter, stem, c) && Fits(p) && p !in fs
    ensures ChainAt(fs[p := Symlink(inter)], p, inter, stem, c)
  {
    ChainAtAfterAdd(fs, alias, inter, stem, c, p, Symlink(inter));
  }
}

=== FILE: dispatch.dfy ===
/** link2symlink_callback: which syscalls the emulation intervenes in, at which moment, and
    on which argument. A syscall is its number and its six argument registers; path
    arguments are the strings the registers point to, after the host path translation. */
module Dispatch {
  import opened Errors
  import FS = FileSystem
  import G = Grower
  import S = Shrinker
  import SP = StatPatch
  import R = Resolver

  /** The syscall numbers the callback distinguishes; Other stands for every other one. */
  datatype Sysnum =
    | Link | Linkat | Unlink | Unlinkat | Rename | Renameat | Renameat2
    | Stat | Stat64 | Lstat | Lstat64 | Fstat | Fstat64 | Fstatat64 | Newfstatat | Statx
    | Symlink | Other

  /** The six argument registers SYSARG_1 .. SYSARG_6, read as strings. */
  type Args = a: seq<string> | |a| == 6 witness ["", "", "", "", "", ""]

  datatype Call = Call(sysnum: Sysnum, args: Args)

  /** Register SYSARG_n. */
  function Arg(call: Call, n: nat): string
    requires 1 <= n <= 6
  {
    call.args[n - 1]
  }

  /** The calls that never get their path translated: following an alias there would
      remove, link or rename the shared final node instead of the alias. */
  predicate KeepsPath(sysnum: Sysnum) {
    sysnum in {Link, Linkat, Unlink, Unlinkat, Rename, Renameat, Renameat2}
  }

  /** The stat family, whose successful results get the link-count patch. */
  predicate IsStatCall(sysnum: Sysnum) {
    sysnum in {Stat, Stat64, Lstat, Lstat64, Fstat, Fstat64, Fstatat64, Newfstatat, Statx}
  }

  /** The register holding the path a removing call is about to destroy: the new path of
      rename() and renameat(), the path of unlink() and unlinkat(). Zero for the others. */
  function RemovedPathArg(sysnum: Sysnum): (n: nat)
    ensures n <= 6
  {
    match sysnum
    case Rename => 2
    case Renameat => 4
    case Unlink => 1
    case Unlinkat => 2
    case _ => 0
  }

  /** The register holding the source of a link request. Zero for the other calls. */
  function LinkSourceArg(sysnum: Sysnum): (n: nat)
    ensures n <= 6
  {
    match sysnum
    case Link => 1
    case Linkat => 2
    case _ => 0
  }

  /** The new path of a link request: the second register of link(), the fourth of
      linkat(). */
  function NewPathArg(call: Call): string
    requires call.sysnum in {Link, Linkat}
  {
    if call.sysnum == Link then Arg(call, 2) else Arg(call, 4)
  }

  /** A link request rewritten into symlink(2): the intermediate becomes the target and the
      request's new path the link to create. */
  function SymlinkCall(call: Call, inter: string): (r: Call)
    requires call.sysnum in {Link, Linkat}
    ensures r.sysnum == Symlink
    ensures Arg(r, 1) == inter && Arg(r, 2) == NewPathArg(call)
  {
    var args: Args :=
      if call.sysnum == Link then call.args[0 := inter]
      else call.args[0 := inter][1 := call.args[3]];
    Call(Symlink, args)
  }

  /** SYSCALL_ENTER_END. A call that may destroy a name first drops that name's link
      count; a link request first grows the chain and is then rewritten into symlink(2)
      from the intermediate to the new path. A negative status from either refuses the
      syscall with that error; the filesystem keeps whatever was done before it. Every
      other call, renameat2() included, passes through untouched. */
  function OnEnter(fs: FS.Fs, call: Call): (o: FS.Outcome<Call>)
    ensures RemovedPathArg(call.sysnum) == 0 && LinkSourceArg(call.sysnum) == 0 ==>
              o == FS.Outcome(fs, Ok(call))
    ensures RemovedPathArg(call.sysnum) != 0 ==>
              var s := S.Shrink(fs, Arg(call, RemovedPathArg(call.sysnum)));
              && o.fs == s.fs
              && (o.result.Ok? <==> s.result.Ok?)
              && (o.result.Ok? ==> o.result.value == call)
    ensures LinkSourceArg(call.sysnum) != 0 ==>
              var g := G.Grow(fs, Arg(call, LinkSourceArg(call.sysnum)));
              && o.fs == g.fs
              && (o.result.Ok? <==> g.result.Ok?)
              && (o.result.Ok? ==> o.result.value == SymlinkCall(call, g.result.value))
  {
    var removed := RemovedPathArg(call.sysnum);
    var source := LinkSourceArg(call.sysnum);
    if removed != 0 then
      var s := S.Shrink(fs, Arg(call, removed));
      FS.Outcome(s.fs, if s.result.Ok? then Ok(call) else Err(s.result.error))
    else if source != 0 then
      var g := G.Grow(fs, Arg(call, source));
      match g.result
      case Err(e) => FS.Outcome(g.fs, Err(e))
      case Ok(inter) => FS.Outcome(g.fs, Ok(SymlinkCall(call, inter)))
    else FS.Outcome(fs, Ok(call))
  }

  /** TRANSLATED_PATH. The resolver runs on the host path of every call except those that
      keep their path. */
  function OnTranslatedPath(fs: FS.Fs, sysnum: Sysnum, path: string): (r: string)
    ensures KeepsPath(sysnum) ==> r == path
    ensures r != path ==> !KeepsPath(sysnum) && R.Resolvable(fs, path)
    ensures !KeepsPath(sysnum) && R.Resolvable(fs, path) ==> r == fs[fs[path].target].target
  {
    if KeepsPath(sysnum) then path else R.Translate(fs, path)
  }

  /** The register that holds the path of a path-based stat call: the second for the
      *at() variants and statx(), the first for the others. */
  function StatPathArg(sysnum: Sysnum): (n: nat)
    ensures 1 <= n <= 2
  {
    if sysnum in {Fstatat64, Newfstatat, Statx} then 2 else 1
  }

  /** The path a successful stat call was about: for fstat() the descriptor's path as
      /proc reports it, minus " (deleted)"; otherwise the path argument, which must fit
      the PATH_MAX buffer it is read into. */
  function StatPath(call: Call, fdPath: Result<string>): (r: Result<string>)
    ensures call.sysnum !in {Fstat, Fstat64} ==>
              var p := Arg(call, StatPathArg(call.sysnum));
              r == if FS.Fits(p) then Ok(p) else Err(NameTooLong)
    ensures call.sysnum in {Fstat, Fstat64} && fdPath.Err? ==> r == Err(fdPath.error)
    ensures call.sysnum in {Fstat, Fstat64} && fdPath.Ok? ==> r == SP.StripDeleted(fdPath.value)
  {
    if call.sysnum in {Fstat, Fstat64} then
      var p :- fdPath;
      SP.StripDeleted(p)
    else
      var p := Arg(call, StatPathArg(call.sysnum));
      if FS.Fits(p) then Ok(p) else Err(NameTooLong)
  }

  /** SYSCALL_EXIT_END. Only a stat-family call that returned 0 is looked at; its buffer
      is then patched as Nlink decides for the path it was about. */
  function OnExit(fs: FS.Fs, call: Call, result: int, fdPath: Result<string>): (r: Result<SP.Patch>)
    ensures !IsStatCall(call.sysnum) || result != 0 ==> r == Ok(SP.Unchanged)
    ensures r != Ok(SP.Unchanged) ==> IsStatCall(call.sysnum) && result == 0
    ensures IsStatCall(call.sysnum) && result == 0 && StatPath(call, fdPath).Ok? ==>
              r == SP.Nlink(fs, StatPath(call, fdPath).value)
    ensures IsStatCall(call.sysnum) && result == 0 && StatPath(call, fdPath).Err? ==>
              r == Err(StatPath(call, fdPath).error)
  {
    if !IsStatCall(call.sysnum) || result != 0 then Ok(SP.Unchanged)
    else
      var original :- StatPath(call, fdPath);
      SP.Nlink(fs, original)
  }
}

=== FILE: errors.dfy ===
/** Error codes reported by the hard-link emulation, and the result type that carries them. */
module Errors {

  /** The errno values the emulation, and the filesystem calls it makes, can produce.
      UndefinedBehaviour stands for the inputs on which the C code reads memory it never wrote
      or points before the start of a buffer; the model reports them as a failure. */
  datatype Errno =
    | NoEntry            // ENOENT
    | NotPermitted       // EPERM; also what a raw -1 return value means when read as -errno
    | NameTooLong        // ENAMETOOLONG
    | Exists             // EEXIST
    | Invalid            // EINVAL
    | IsDirectory        // EISDIR
    | NotDirectory       // ENOTDIR
    | Loop               // ELOOP
    | UndefinedBehaviour

  /** Either a value or the errno that stopped the computation. */
  datatype Result<+T> = Ok(value: T) | Err(error: Errno) {

    predicate IsFailure() {
      Err?
    }

    function PropagateFailure<U>(): Result<U>
      requires Err?
    {
      Err(error)
    }

    function Extract(): T
      requires Ok?
    {
      value
    }
  }
}

=== FILE: filesystem.dfy ===
/** The filesystem the emulation works on, as an immutable map from path strings to nodes,
    and the system calls it makes as total functions that either fail or return the new map.
    Each call is one atomic update; nothing interleaves with it. */
module FileSystem {
  import opened Errors
  import opened Names

  /** What lstat() can tell apart: a regular file (with its content), a directory, a symbolic link. */
  datatype Node = Regular(content: string) | Dir | Symlink(target: string)

  type Fs = map<string, Node>

  /** The filesystem after an operation, and what the operation returned. The map is reported
      on failure too: an operation that fails half-way leaves its earlier steps in place. */
  datatype Outcome<T> = Outcome(fs: Fs, result: Result<T>)

  /** Every kernel path argument must fit a PATH_MAX buffer with its NUL. */
  predicate Fits(p: string) {
    |p| < PathMax
  }

  /** lstat(2): the node itself, without following a final symlink. */
  function Lstat(fs: Fs, p: string): (r: Result<Node>)
    ensures r.Ok? <==> Fits(p) && p in fs
    ensures r.Ok? ==> r.value == fs[p]
    ensures r.Err? ==> r.error == (if Fits(p) then NoEntry else NameTooLong)
  {
    if !Fits(p) then Err(NameTooLong)
    else if p !in fs then Err(NoEntry)
    else Ok(fs[p])
  }

  /** readlink(2): the target of a symbolic link; EINVAL on any other node. */
  function Readlink(fs: Fs, p: string): (r: Result<string>)
    ensures r.Ok? <==> Fits(p) && p in fs && fs[p].Symlink?
    ensures r.Ok? ==> r.value == fs[p].target
  {
    if !Fits(p) then Err(NameTooLong)
    else if p !in fs then Err(NoEntry)
    else if !fs[p].Symlink? then Err(Invalid)
    else Ok(fs[p].target)
  }

  /** The source's my_readlink (link2symlink.c:26-38): readlink into a PATH_MAX buffer.
      A failed readlink makes it return readlink's own -1, which the callers pass on as
      the errno EPERM; a target that fills the whole buffer is ENAMETOOLONG. */
  function ReadlinkBounded(fs: Fs, p: string): (r: Result<string>)
    ensures r.Ok? <==> Fits(p) && p in fs && fs[p].Symlink? && Fits(fs[p].target)
    ensures r.Ok? ==> r.value == fs[p].target
    ensures r.Err? ==> r.error == (if Readlink(fs, p).Ok? then NameTooLong else NotPermitted)
  {
    match Readlink(fs, p)
    case Err(_) => Err(NotPermitted)
    case Ok(t) => if |t| >= PathMax then Err(NameTooLong) else Ok(t)
  }

  /** rename(2) on a flat namespace: the node moves to the new name, replacing what was
      there unless one of the two is a directory and the other is not. */
  function Rename(fs: Fs, from: string, to: string): (r: Result<Fs>)
    ensures r.Ok? <==>
              && Fits(from) && Fits(to) && from in fs
              && (from == to || to !in fs || fs[to].Dir? == fs[from].Dir?)
    ensures r.Ok? ==> r.value == if from == to then fs else (fs - {from})[to := fs[from]]
  {
    if !Fits(from) || !Fits(to) then Err(NameTooLong)
    else if from !in fs then Err(NoEntry)
    else if from == to then Ok(fs)
    else if to in fs && fs[to].Dir? && !fs[from].Dir? then Err(IsDirectory)
    else if to in fs && !fs[to].Dir? && fs[from].Dir? then Err(NotDirectory)
    else Ok((fs - {from})[to := fs[from]])
  }

  /** symlink(2): creates linkpath pointing at target; fails if linkpath exists. */
  function CreateSymlink(fs: Fs, target: string, linkpath: string): (r: Result<Fs>)
    ensures r.Ok? <==> Fits(target) && Fits(linkpath) && target != [] && linkpath !in fs
    ensures r.Ok? ==> r.value == fs[linkpath := Symlink(target)]
  {
    if !Fits(target) || !Fits(linkpath) then Err(NameTooLong)
    else if target == [] then Err(NoEntry)
    else if linkpath in fs then Err(Exists)
    else Ok(fs[linkpath := Symlink(target)])
  }

  /** unlink(2): removes any node but a directory. */
  function Unlink(fs: Fs, p: string): (r: Result<Fs>)
    ensures r.Ok? <==> Fits(p) && p in fs && !fs[p].Dir?
    ensures r.Ok? ==> r.value == fs - {p}
  {
    if !Fits(p) then Err(NameTooLong)
    else if p !in fs then Err(NoEntry)
    else if fs[p].Dir? then Err(IsDirectory)
    else Ok(fs - {p})
  }

  /** The number of symbolic links the kernel follows before giving up with ELOOP. */
  const MaxSymlinkHops: nat := 40

  /** Where a symlink's target points: absolute targets as they are, relative ones from
      the directory that holds the link. */
  function ResolveTarget(link: string, target: string): string {
    if |target| > 0 && target[0] == '/' then target else DirPart(link) + target
  }

  /** stat(2)-style lookup: follows symbolic links, at most hops of them. */
  function Follow(fs: Fs, p: string, hops: nat): (r: Result<Node>)
    ensures r.Ok? ==> !r.value.Symlink?
    ensures Fits(p) && p in fs && !fs[p].Symlink? ==> r == Ok(fs[p])
    ensures !Fits(p) || p !in fs ==> r.Err?
    ensures Fits(p) && p in fs && fs[p].Symlink? ==>
              r == if hops == 0 then Err(Loop) else Follow(fs, ResolveTarget(p, fs[p].target), hops - 1)
    decreases hops
  {
    if !Fits(p) then Err(NameTooLong)
    else if p !in fs then Err(NoEntry)
    else match fs[p]
      case Symlink(t) => if hops == 0 then Err(Loop) else Follow(fs, ResolveTarget(p, t), hops - 1)
      case n => Ok(n)
  }

  /** access(p, F_OK) != -1: the path exists once symbolic links are followed; a dangling
      link does not count. */
  predicate Accessible(fs: Fs, p: string) {
    Follow(fs, p, MaxSymlinkHops).Ok?
  }

  /** A link to an existing file or directory is accessible, whatever its own name: access()
      looks through it. A dangling link is not. */
  lemma AccessibleThroughLink(fs: Fs, p: string)
    requires Fits(p) && p in fs && fs[p].Symlink?
    ensures
      var t := ResolveTarget(p, fs[p].target);
      && (Fits(t) && t in fs && !fs[t].Symlink? ==> Accessible(fs, p))
      && (!Fits(t) || t !in fs ==> !Accessible(fs, p))
  {
  }
}

=== FILE: grow.dfy ===
/** Link Grower: move_and_symlink_path. A link request on `original` either turns the file
    into a fresh chain (first link) or bumps the count of the chain it already belongs to.
    The path the caller's syscall is rewritten to is the result. */
module Grower {
  import opened Errors
  import opened Names
  import opened FileSystem
  import opened Chain

  /** The disambiguator loop: candidates base + "%04d"(k) for k = 1, 2, ... are tried while
      access() finds them and k stays below 1000. There is no exhaustion error: the loop stops
      at 999 whether or not that name is free. */
  function Probe(fs: Fs, base: string, k: int): (r: int)
    requires 1 <= k <= 999
    ensures k <= r <= 999
    ensures r < 999 ==> !Accessible(fs, base + Format4(r))
    ensures forall j :: k <= j < r ==> Accessible(fs, base + Format4(j))
    decreases 1000 - k
  {
    if Accessible(fs, base + Format4(k)) && k + 1 < 1000 then Probe(fs, base, k + 1) else k
  }

  /** When every candidate from k on is taken, Probe settles on 999 without reporting
      anything: the first link then goes ahead with a name that is in use. */
  lemma {:induction false} ProbeSettlesOn999(fs: Fs, base: string, k: int)
    requires 1 <= k <= 999
    requires forall j :: k <= j < 999 ==> Accessible(fs, base + Format4(j))
    ensures Probe(fs, base, k) == 999
    decreases 1000 - k
  {
    if k < 999 {
      ProbeSettlesOn999(fs, base, k + 1);
    }
  }

  /** The first-link branch, given the intermediate name before its disambiguator: a name
      whose chain names would not fit the path buffers is refused before any change;
      otherwise the disambiguator comes from Probe and the links are made by LinkFresh. */
  function FirstLink(fs: Fs, original: string, base: string): (o: Outcome<string>)
    ensures !ChainNamesFit(base) ==> o == Outcome(fs, Err(NameTooLong))
    ensures o.result.Ok? ==> o.result.value == base + Format4(Probe(fs, base, 1))
    ensures o.result.Ok? ==>
              var inter := o.result.value;
              && original in fs
              && o.fs == (fs - {original})[inter + ".0002" := fs[original]]
                           [inter := Symlink(inter + ".0002")][original := Symlink(inter)]
  {
    if !ChainNamesFit(base) then Outcome(fs, Err(NameTooLong))
    else LinkFresh(fs, original, base + Format4(Probe(fs, base, 1)))
  }

  /** The three steps of a first link once the intermediate name is chosen: the original
      node moves to the final name (count 0002), the intermediate is created as a link to
      it, and the original path becomes a link to the intermediate. A failing step returns
      its error and keeps the steps before it. */
  function LinkFresh(fs: Fs, original: string, inter: string): (o: Outcome<string>)
    ensures o.result.Ok? ==> o.result.value == inter
    ensures o.result.Ok? ==>
              && original in fs
              && o.fs == (fs - {original})[inter + ".0002" := fs[original]]
                           [inter := Symlink(inter + ".0002")][original := Symlink(inter)]
  {
    var final := inter + ".0002";
    match Rename(fs, original, final)
    case Err(e) => Outcome(fs, Err(e))
    case Ok(fs1) =>
      match CreateSymlink(fs1, final, inter)
      case Err(e) => Outcome(fs1, Err(e))
      case Ok(fs2) =>
        match CreateSymlink(fs2, inter, original)
        case Err(e) => Outcome(fs2, Err(e))
        case Ok(fs3) =>
          assert original !in fs1;
          Outcome(fs3, Ok(inter))
  }

  /** The branch for a source that already is a chain alias: the final node is renamed so
      that its last four characters hold count + 1, and the intermediate is re-pointed by
      unlinking and re-creating it. */
  function GrowChain(fs: Fs, inter: string): (o: Outcome<string>)
    ensures o.result.Ok? ==> o.result.value == inter && inter in o.fs && o.fs[inter].Symlink?
    ensures o.result.Ok? ==>
              && inter in fs && fs[inter].Symlink? && |fs[inter].target| >= 4
              && var final := fs[inter].target;
                 var newFinal := WithCount(final, CountOf(final) + 1);
                 && o.fs[inter] == Symlink(newFinal)
                 && final in fs
                 && o.fs == (fs - {final})[newFinal := fs[final]][inter := Symlink(newFinal)]
  {
    match ReadlinkBounded(fs, inter)
    case Err(e) => Outcome(fs, Err(e))
    case Ok(final) =>
      if |final| < 4 then Outcome(fs, Err(UndefinedBehaviour))
      else
        var o := MoveFinal(fs, inter, final, WithCount(final, CountOf(final) + 1));
        Outcome(o.fs, if o.result.Ok? then Ok(inter) else Err(o.result.error))
  }

  /** move_and_symlink_path. Directories are refused with EPERM and a failing lstat passes
      its error on, both before anything changes. A symbolic link whose target's basename
      carries the marker is a chain alias; any other source (a regular file, or a link to an
      unmarked target, whose raw target then serves as the intermediate's base) gets its
      first link. */
  function Grow(fs: Fs, original: string): (o: Outcome<string>)
    ensures Lstat(fs, original).Err? ==> o == Outcome(fs, Err(Lstat(fs, original).error))
    ensures Fits(original) && original in fs && fs[original].Dir? ==>
              o == Outcome(fs, Err(NotPermitted))
    ensures o.result.Ok? ==> o.result.value in o.fs && o.fs[o.result.value].Symlink?
  {
    match Lstat(fs, original)
    case Err(e) => Outcome(fs, Err(e))
    case Ok(node) =>
      if node.Dir? then Outcome(fs, Err(NotPermitted))
      else if node.Symlink? then
        match ReadlinkBounded(fs, original)
        case Err(e) => Outcome(fs, Err(e))
        case Ok(target) =>
          if IsChainName(target) then GrowChain(fs, target) else FirstLink(fs, original, target)
      else FirstLink(fs, original, IntermediateBase(original))
  }

  /* ---------------------------------------------------------------- first link */

  /** On a regular file Grow takes the first-link branch with the intermediate base built
      from the file's own name. */
  lemma GrowOnFile(fs: Fs, original: string)
    requires Fits(original) && original in fs && fs[original].Regular?
    ensures Grow(fs, original) == FirstLink(fs, original, IntermediateBase(original))
  {
  }

  /** First link on a regular file: the intermediate is the directory part, the marker, the
      basename and the disambiguator that Probe picks, and a name too long for the buffers is
      refused before any change. */
  lemma GrowFirstLinkNaming(fs: Fs, original: string)
    requires Fits(original) && original in fs && fs[original].Regular?
    ensures !ChainNamesFit(IntermediateBase(original)) ==>
              Grow(fs, original) == Outcome(fs, Err(NameTooLong))
    ensures Grow(fs, original).result.Ok? ==>
              Grow(fs, original).result.value
                == DirPart(original) + Prefix + Basename(original)
                   + Format4(Probe(fs, IntermediateBase(original), 1))
  {
    GrowOnFile(fs, original);
  }

  /** First link on a regular file, when the chosen names are free: the content moves to
      intermediate + ".0002", the intermediate links to it, the original links to the
      intermediate, every other path is unchanged, the chain invariant holds with count 2,
      and the intermediate is the path the syscall is rewritten to. */
  lemma GrowFirstLinkOnFile(fs: Fs, original: string)
    requires Fits(original) && original in fs && fs[original].Regular?
    requires ChainNamesFit(IntermediateBase(original))
    requires
      var base := IntermediateBase(original);
      var inter := base + Format4(Probe(fs, base, 1));
      inter !in fs && inter + ".0002" !in fs
    ensures
      var base := IntermediateBase(original);
      var inter := base + Format4(Probe(fs, base, 1));
      var final := inter + ".0002";
      var o := Grow(fs, original);
      && o.result == Ok(inter)
      && o.fs == (fs - {original})[final := fs[original]][inter := Symlink(final)]
                   [original := Symlink(inter)]
      && ChainAt(o.fs, original, inter, inter + ".", 2)
  {
    GrowOnFile(fs, original);
    FirstLinkChain(fs, original, IntermediateBase(original));
  }

  /** When the chosen names are free, the first link succeeds and forms a chain of count 2. */
  lemma FirstLinkChain(fs: Fs, original: string, base: string)
    requires Fits(original) && original in fs && fs[original].Regular?
    requires ChainNamesFit(base) && IsChainName(base)
    requires
      var inter := base + Format4(Probe(fs, base, 1));
      inter !in fs && inter + ".0002" !in fs
    ensures
      var inter := base + Format4(Probe(fs, base, 1));
      var o := FirstLink(fs, original, base);
      && o.result == Ok(inter)
      && ChainAt(o.fs, original, inter, inter + ".", 2)
  {
    var k := Probe(fs, base, 1);
    var inter := base + Format4(k);
    ChainNamesFitBounds(base, k, 2);
    Format4Two();
    ChainNamesOfFirstLink(base, k);
    LinkFreshChain(fs, original, inter);
  }

  /** The three steps of the first link succeed when the names they create are free and
      fit, and they leave a chain of count 2 behind. */
  lemma LinkFreshChain(fs: Fs, original: string, inter: string)
    requires Fits(original) && original in fs && fs[original].Regular?
    requires |inter + ".0002"| + 1 <= PathMax && inter != []
    requires IsChainName(inter) && IsChainName(inter + ".")
    requires inter !in fs && inter + ".0002" !in fs
    ensures
      var o := LinkFresh(fs, original, inter);
      && o.result == Ok(inter)
      && ChainAt(o.fs, original, inter, inter + ".", 2)
  {
    LinkFreshSucceeds(fs, original, inter);
    FreshChainAt(fs, original, inter, LinkFresh(fs, original, inter).fs);
  }

  /** The map a successful first link leaves behind holds a chain of count 2. */
  lemma FreshChainAt(fs: Fs, original: string, inter: string, m: Fs)
    requires Fits(original) && original in fs && fs[original].Regular?
    requires |inter + ".0002"| + 1 <= PathMax
    requires IsChainName(inter) && IsChainName(inter + ".")
    requires inter !in fs && inter + ".0002" !in fs
    requires m == (fs - {original})[inter + ".0002" := fs[original]]
                    [inter := Symlink(inter + ".0002")][original := Symlink(inter)]
    ensures ChainAt(m, original, inter, inter + ".", 2)
  {
    var final := inter + ".0002";
    assert final != inter by {
      assert |final| == |inter| + 5;
    }
    FirstLinkLookups(fs, original, inter, final);
    FreshFinalName(inter);
  }

  /** The name a first link moves the content to is the final name of count 2. */
  lemma FreshFinalName(inter: string)
    ensures FinalName(inter + ".", 2) == inter + ".0002"
  {
    Format4Two();
    assert "." + "0002" == ".0002";
    assert inter + "." + "0002" == inter + ("." + "0002");
  }

  /** What the three steps of a first link leave at the three names involved. */
  lemma FirstLinkLookups(fs: Fs, original: string, inter: string, final: string)
    requires original in fs
    requires final != inter && final != original && inter != original
    ensures
      var m := (fs - {original})[final := fs[original]][inter := Symlink(final)]
                 [original := Symlink(inter)];
      && original in m && m[original] == Symlink(inter)
      && inter in m && m[inter] == Symlink(final)
      && final in m && m[final] == fs[original]
  {
  }

  /** The intermediate and the stem of the final name both carry the marker. */
  lemma ChainNamesOfFirstLink(base: string, k: int)
    requires IsChainName(base)
    ensures IsChainName(base + Format4(k))
    ensures IsChainName(base + Format4(k) + ".")
  {
    BasenameAppend(base, Format4(k));
    BasenameAppend(base + Format4(k), ".");
  }

  /** The three steps of the first link succeed when the names they create are free. */
  lemma LinkFreshSucceeds(fs: Fs, original: string, inter: string)
    requires Fits(original) && original in fs && !fs[original].Dir?
    requires |inter + ".0002"| + 1 <= PathMax && inter != []
    requires inter !in fs && inter + ".0002" !in fs
    ensures LinkFresh(fs, original, inter).result == Ok(inter)
  {
    var final := inter + ".0002";
    var fs1 := (fs - {original})[final := fs[original]];
    assert Rename(fs, original, final) == Ok(fs1);
    assert inter != final by {
      assert |final| == |inter| + 5;
    }
    assert inter !in fs1;
    var fs2 := fs1[inter := Symlink(final)];
    assert CreateSymlink(fs1, final, inter) == Ok(fs2);
    assert original !in fs2;
  }

  /** A source that is a link to an unmarked target is treated as a first link whose
      intermediate is built from the raw target, not from the source's own name. */
  lemma GrowThroughForeignSymlink(fs: Fs, original: string)
    requires Fits(original) && original in fs && fs[original].Symlink?
    requires Fits(fs[original].target) && !IsChainName(fs[original].target)
    ensures var target := fs[original].target;
            && (!ChainNamesFit(target) ==> Grow(fs, original) == Outcome(fs, Err(NameTooLong)))
            && (Grow(fs, original).result.Ok? ==>
                  Grow(fs, original).result.value == target + Format4(Probe(fs, target, 1)))
  {
    assert Grow(fs, original) == FirstLink(fs, original, fs[original].target);
  }

  /** The branch for a link to an unmarked target applies no length test at all. In a map
      holding one link whose target has 4095 characters, my_readlink accepts the target,
      the target carries no marker, the probe settles on 1, and the intermediate's name with
      that disambiguator no longer fits a PATH_MAX buffer; the corrected model refuses. */
  lemma UnguardedTargetOverflows()
    ensures exists target: string ::
              var fs := map["l" := Symlink(target)];
              && ReadlinkBounded(fs, "l") == Ok(target)
              && !IsChainName(target)
              && Probe(fs, target, 1) == 1
              && |target + Format4(Probe(fs, target, 1))| + 1 > PathMax
              && Grow(fs, "l") == Outcome(fs, Err(NameTooLong))
  {
    var target := seq(4095, _ => 'a');
    var fs := map["l" := Symlink(target)];
    assert '/' !in target && Prefix[0] !in target;
    BasenameOfPlainName(target);
    Format4Length(1);
    assert !Accessible(fs, target + Format4(1));
    GrowThroughForeignSymlink(fs, "l");
  }

  /** A first link whose chosen names are already taken, as after Probe settled on an
      occupied 999: the rename replaces whatever regular file held the final name, then
      creating the intermediate fails with EEXIST and the moved content stays where it is. */
  lemma LinkFreshOverTakenNames(fs: Fs, original: string, inter: string)
    requires Fits(original) && original in fs && fs[original].Regular?
    requires Fits(inter + ".0002") && inter in fs && inter != original
    requires inter + ".0002" in fs && fs[inter + ".0002"].Regular? && inter + ".0002" != original
    ensures LinkFresh(fs, original, inter)
              == Outcome((fs - {original})[inter + ".0002" := fs[original]], Err(Exists))
  {
    var final := inter + ".0002";
    assert inter != final by {
      assert |final| == |inter| + 5;
    }
    var fs1 := (fs - {original})[final := fs[original]];
    assert Rename(fs, original, final) == Ok(fs1);
    assert Fits(inter) && inter in fs1;
  }

  /* ---------------------------------------------------------------- existing chain */

  /** On a link to a marked target Grow takes the existing-chain branch. */
  lemma GrowOnAlias(fs: Fs, alias: string, inter: string)
    requires Fits(alias) && alias in fs && fs[alias] == Symlink(inter)
    requires Fits(inter) && IsChainName(inter)
    ensures Grow(fs, alias) == GrowChain(fs, inter)
  {
  }

  /** A link request on an alias of a chain with count c renames the final node so that only
      its last four characters change, to c + 1; re-points the intermediate to the new name;
      leaves the alias and every other path alone; and keeps the chain invariant. */
  lemma GrowExistingChain(fs: Fs, alias: string, inter: string, stem: string, c: int)
    requires ChainAt(fs, alias, inter, stem, c)
    requires c < 9999 && FinalName(stem, c + 1) !in fs
    ensures
      var final := FinalName(stem, c);
      var newFinal := FinalName(stem, c + 1);
      && newFinal == WithCount(final, c + 1)
      && Grow(fs, alias).result == Ok(inter)
      && Grow(fs, alias).fs == (fs - {final})[newFinal := fs[final]][inter := Symlink(newFinal)]
      && Grow(fs, alias).fs[alias] == fs[alias]
      && ChainAt(Grow(fs, alias).fs, alias, inter, stem, c + 1)
  {
    var final := FinalName(stem, c);
    var newFinal := FinalName(stem, c + 1);
    var m := (fs - {final})[newFinal := fs[final]][inter := Symlink(newFinal)];
    assert && |final| >= 4 && CountOf(final) == c && WithCount(final, c + 1) == newFinal
           && MoveFinal(fs, inter, final, newFinal) == Outcome(m, Ok(()))
           && ChainAt(m, alias, inter, stem, c + 1) && m[alias] == fs[alias] by {
      MoveFinalOnChain(fs, alias, inter, stem, c, c + 1);
    }
    assert GrowChain(fs, inter) == Outcome(m, Ok(inter)) by {
      ChainReadlinks(fs, alias, inter, stem, c);
      GrowChainRecount(fs, inter, final, c, newFinal, m);
    }
    assert Grow(fs, alias) == GrowChain(fs, inter) by {
      GrowOnAlias(fs, alias, inter);
    }
  }

  /** GrowChain on a readable intermediate is the count change of MoveFinal to count + 1. */
  lemma GrowChainRecount(fs: Fs, inter: string, final: string, c: int, newFinal: string, m: Fs)
    requires ReadlinkBounded(fs, inter) == Ok(final) && |final| >= 4
    requires CountOf(final) == c && WithCount(final, c + 1) == newFinal
    requires MoveFinal(fs, inter, final, newFinal) == Outcome(m, Ok(()))
    ensures GrowChain(fs, inter) == Outcome(m, Ok(inter))
  {
    assert WithCount(final, CountOf(final) + 1) == newFinal;
  }
}

=== FILE: names.dfy ===
/** The pure string side of the emulation: path components, the ".l2s." marker, the
    printf("%04d") rendering of counters and the atoi() reading of a name's last four characters. */
module Names {

  /** PATH_MAX on Linux: a path buffer holds at most PathMax - 1 characters plus the NUL. */
  const PathMax: nat := 4096

  /** The marker put in front of the basename of every hidden chain node. */
  const Prefix: string := ".l2s."

  /** What the kernel appends to the /proc/<pid>/fd link of a descriptor whose file was unlinked. */
  const DeletedSuffix: string := " (deleted)"

  /* ---------------------------------------------------------------- path components */

  /** The text after the last '/', or the whole string when it has none (strrchr + 1): the
      longest suffix without a '/'. */
  function Basename(s: string): (b: string)
    ensures |b| <= |s| && b == s[|s| - |b|..]
    ensures '/' !in b
    ensures |b| < |s| ==> s[|s| - |b| - 1] == '/'
  {
    if |s| == 0 || s[|s| - 1] == '/' then ""
    else
      var b' := Basename(s[..|s| - 1]);
      BasenameStep(s, b');
      b' + [s[|s| - 1]]
  }

  /** A last character other than '/' extends the basename of the rest of the string. */
  lemma BasenameStep(s: string, b: string)
    requires |s| > 0 && s[|s| - 1] != '/'
    requires |b| <= |s| - 1 && b == s[..|s| - 1][|s| - 1 - |b|..]
    requires '/' !in b
    requires |b| < |s| - 1 ==> s[..|s| - 1][|s| - 1 - |b| - 1] == '/'
    ensures var b2 := b + [s[|s| - 1]];
      && |b2| <= |s| && b2 == s[|s| - |b2|..]
      && '/' !in b2
      && (|b2| < |s| ==> s[|s| - |b2| - 1] == '/')
  {
    assert b + [s[|s| - 1]] == s[|s| - 1 - |b|..];
  }

  /** Everything up to and including the last '/': the first strlen(s) - strlen(name) characters. */
  function DirPart(s: string): (d: string)
    ensures d + Basename(s) == s
    ensures d == [] || d[|d| - 1] == '/'
  {
    SplitAt(s, |s| - |Basename(s)|);
    s[..|s| - |Basename(s)|]
  }

  /** A sequence is its first i elements followed by the rest. */
  lemma SplitAt(s: string, i: nat)
    requires i <= |s|
    ensures s[..i] + s[i..] == s
  {
  }

  /** Appending text without a '/' extends the basename by that text. */
  lemma {:induction false} BasenameAppend(x: string, y: string)
    requires '/' !in y
    ensures Basename(x + y) == Basename(x) + y
  {
    if y == [] {
      assert x + y == x;
    } else {
      var y', c := y[..|y| - 1], y[|y| - 1];
      assert x + y == (x + y') + [c] && y == y' + [c];
      BasenameAppend(x, y');
      BasenameSnoc(x + y', c);
    }
  }

  /** Appending one character other than '/' extends the basename by it. */
  lemma BasenameSnoc(s: string, c: char)
    requires c != '/'
    ensures Basename(s + [c]) == Basename(s) + [c]
  {
    assert (s + [c])[..|s|] == s;
  }

  /** A marked name holds at least the marker. */
  lemma ChainNameLength(p: string)
    requires IsChainName(p)
    ensures |p| >= |Prefix|
  {
  }

  /** A string without '/' is its own basename. */
  lemma BasenameOfPlainName(s: string)
    requires '/' !in s
    ensures Basename(s) == s
  {
    BasenameAppend([], s);
    assert [] + s == s;
  }

  /** True when the basename of the path begins with the marker (strncmp(name, PREFIX, 5) == 0). */
  predicate IsChainName(path: string) {
    Prefix <= Basename(path)
  }

  /** The name of the intermediate node before its disambiguator: the directory part,
      the marker, then the original basename. */
  function IntermediateBase(original: string): (r: string)
    ensures Basename(r) == Prefix + Basename(original)
    ensures IsChainName(r)
    ensures |r| == |original| + |Prefix|
  {
    IntermediateBaseShape(DirPart(original), Basename(original));
    DirPart(original) + Prefix + Basename(original)
  }

  /** A directory part, the marker and a slash-free name: the basename is the last two. */
  lemma IntermediateBaseShape(d: string, b: string)
    requires d == [] || d[|d| - 1] == '/'
    requires '/' !in b
    ensures Basename(d + Prefix + b) == Prefix + b
  {
    var tail := Prefix + b;
    assert d + Prefix + b == d + tail;
    assert '/' !in tail by {
      forall i | 0 <= i < |tail|
        ensures tail[i] != '/'
      {
        if i >= |Prefix| {
          assert tail[i] == b[i - |Prefix|];
        }
      }
    }
    BasenameAppend(d, tail);
    assert Basename(d) == [];
  }

  /* ---------------------------------------------------------------- length guards */

  /** The length test of the first-link branch as the C writes it:
      strlen(PREFIX) + strlen(original) + 5 >= PATH_MAX. */
  predicate TooLongAsWritten(original: string) {
    |Prefix| + |original| + 5 >= PathMax
  }

  /** The test the name buffers need: the longest name derived from base, which is
      base + 4 disambiguator digits + "." + 4 count digits, fits PATH_MAX with its NUL. */
  predicate ChainNamesFit(base: string) {
    |base| + 4 + 5 < PathMax
  }

  /** The guard as written lets through an original whose final-node name does not fit a
      PATH_MAX buffer: 4085 characters pass, and the final name then has 4099. */
  lemma GuardAsWrittenOverflows()
    ensures exists original: string ::
              !TooLongAsWritten(original)
              && |IntermediateBase(original) + Format4(1) + ".0002"| + 1 > PathMax
  {
    var original := seq(4085, _ => 'a');
    Format4Length(1);
    assert !TooLongAsWritten(original);
    assert |IntermediateBase(original) + Format4(1) + ".0002"| == 4099;
  }

  /** Under the corrected guard every intermediate and final name that the first link can
      derive from base fits a PATH_MAX buffer. */
  lemma ChainNamesFitBounds(base: string, k: int, count: int)
    requires ChainNamesFit(base)
    requires 1 <= k <= 999 && 0 <= count <= 9999
    ensures |base + Format4(k)| + 1 <= PathMax
    ensures |base + Format4(k) + "." + Format4(count)| + 1 <= PathMax
  {
    Format4Length(k);
    Format4Length(count);
  }

  /* ---------------------------------------------------------------- printf("%04d") */

  predicate IsDigit(c: char) {
    '0' <= c <= '9'
  }

  predicate AllDigits(s: string) {
    forall i :: 0 <= i < |s| ==> IsDigit(s[i])
  }

  function DigitChar(d: nat): (c: char)
    requires d < 10
    ensures IsDigit(c) && DigitValue(c) == d
  {
    (48 + d) as char
  }

  function DigitValue(c: char): (d: nat)
    requires IsDigit(c)
    ensures d < 10
  {
    c as int - 48
  }

  /** The decimal rendering of n without leading zeros ("0" for zero). */
  function Decimal(n: nat): (s: string)
    ensures 1 <= |s|
    ensures AllDigits(s)
    decreases n
  {
    if n < 10 then [DigitChar(n)] else Decimal(n / 10) + [DigitChar(n % 10)]
  }

  function Zeros(k: nat): (s: string)
    ensures |s| == k
    ensures forall i :: 0 <= i < k ==> s[i] == '0'
  {
    seq(k, _ => '0')
  }

  /** s left-padded with '0' to at least width characters. */
  function ZeroPad(s: string, width: nat): (r: string)
    ensures |r| == if |s| >= width then |s| else width
  {
    if |s| >= width then s else Zeros(width - |s|) + s
  }

  /** printf("%04d", n): zero-padded to width 4, the sign counting towards the width. */
  function Format4(n: int): (s: string)
    ensures '/' !in s
    ensures forall i :: 0 <= i < |s| ==> IsDigit(s[i]) || s[i] == '-'
  {
    if n >= 0 then ZeroPad(Decimal(n), 4) else "-" + ZeroPad(Decimal(-n), 3)
  }

  function Pow10(k: nat): (p: nat)
    ensures p >= 1
  {
    if k == 0 then 1 else 10 * Pow10(k - 1)
  }

  lemma {:induction false} DecimalLength(n: nat, k: nat)
    requires 1 <= k && n < Pow10(k)
    ensures |Decimal(n)| <= k
    decreases n
  {
    if n >= 10 {
      assert k >= 2;
      DecimalLength(n / 10, k - 1);
    }
  }

  /** The rendering has exactly four characters for every count from -999 to 9999. */
  lemma Format4Length(n: int)
    requires -999 <= n <= 9999
    ensures |Format4(n)| == 4
  {
    if n >= 0 {
      DecimalLength(n, 4);
    } else {
      DecimalLength(-n, 3);
    }
  }

  /* ---------------------------------------------------------------- atoi() */

  predicate IsSpace(c: char) {
    c == ' ' || c == '\t' || c == '\n' || c == '\U{B}' || c == '\U{C}' || c == '\r'
  }

  function SkipSpaces(s: string): (t: string)
    ensures |t| <= |s| && t == s[|s| - |t|..]
    ensures |t| == 0 || !IsSpace(t[0])
  {
    if |s| > 0 && IsSpace(s[0]) then SkipSpaces(s[1..]) else s
  }

  /** The longest prefix of s made of decimal digits. */
  function DigitRun(s: string): (ds: string)
    ensures ds <= s
    ensures AllDigits(ds)
    ensures |ds| == |s| || !IsDigit(s[|ds|])
  {
    if |s| > 0 && IsDigit(s[0]) then [s[0]] + DigitRun(s[1..]) else ""
  }

  /** The value of a string of decimal digits, read left to right. */
  function DigitsValue(ds: string): (v: nat)
    requires AllDigits(ds)
  {
    if |ds| == 0 then 0 else DigitsValue(ds[..|ds| - 1]) * 10 + DigitValue(ds[|ds| - 1])
  }

  /** C atoi(): leading white space, an optional sign, then as many digits as follow. */
  function Atoi(s: string): int {
    var t := SkipSpaces(s);
    if |t| > 0 && t[0] == '-' then 0 - DigitsValue(DigitRun(t[1..]))
    else if |t| > 0 && t[0] == '+' then DigitsValue(DigitRun(t[1..]))
    else DigitsValue(DigitRun(t))
  }

  lemma {:induction false} DigitsValueBound(ds: string)
    requires AllDigits(ds)
    ensures DigitsValue(ds) < Pow10(|ds|)
  {
    if |ds| > 0 {
      DigitsValueBound(ds[..|ds| - 1]);
    }
  }

  /** atoi() of at most four characters lies between -999 and 9999. */
  lemma AtoiOfFourChars(s: string)
    requires |s| <= 4
    ensures -999 <= Atoi(s) <= 9999
  {
    var t := SkipSpaces(s);
    if |t| > 0 && (t[0] == '-' || t[0] == '+') {
      var ds := DigitRun(t[1..]);
      DigitsValueBound(ds);
      assert Pow10(|ds|) <= Pow10(3) by { Pow10Monotone(|ds|, 3); }
    } else {
      var ds := DigitRun(t);
      DigitsValueBound(ds);
      assert Pow10(|ds|) <= Pow10(4) by { Pow10Monotone(|ds|, 4); }
    }
  }

  lemma {:induction false} Pow10Monotone(a: nat, b: nat)
    requires a <= b
    ensures Pow10(a) <= Pow10(b)
    decreases b
  {
    if a < b {
      Pow10Monotone(a, b - 1);
    }
  }

  lemma {:induction false} DigitsValueOfDecimal(n: nat)
    ensures DigitsValue(Decimal(n)) == n
    decreases n
  {
    if n >= 10 {
      var s := Decimal(n);
      assert s[..|s| - 1] == Decimal(n / 10);
      DigitsValueOfDecimal(n / 10);
    }
  }

  lemma {:induction false} DigitsValueLeadingZeros(k: nat, ds: string)
    requires AllDigits(ds)
    ensures AllDigits(Zeros(k) + ds)
    ensures DigitsValue(Zeros(k) + ds) == DigitsValue(ds)
    decreases |ds|, k
  {
    var s := Zeros(k) + ds;
    if |ds| > 0 {
      assert s[..|s| - 1] == Zeros(k) + ds[..|ds| - 1];
      DigitsValueLeadingZeros(k, ds[..|ds| - 1]);
    } else if k > 0 {
      assert s == Zeros(k - 1) + "0";
      assert s[..|s| - 1] == Zeros(k - 1) + ds;
      DigitsValueLeadingZeros(k - 1, ds);
    }
  }

  lemma {:induction false} DigitRunOfDigits(s: string)
    requires AllDigits(s)
    ensures DigitRun(s) == s
    decreases |s|
  {
    if |s| > 0 {
      DigitRunOfDigits(s[1..]);
      assert [s[0]] + s[1..] == s;
    }
  }

  lemma ZeroPadValue(ds: string, width: nat)
    requires AllDigits(ds)
    ensures AllDigits(ZeroPad(ds, width))
    ensures DigitsValue(ZeroPad(ds, width)) == DigitsValue(ds)
  {
    if |ds| < width {
      DigitsValueLeadingZeros(width - |ds|, ds);
    }
  }

  /** A string of digits with no sign and no white space reads back as its digits' value. */
  lemma AtoiOfDigits(s: string)
    requires AllDigits(s) && |s| > 0
    ensures Atoi(s) == DigitsValue(s)
  {
    assert !IsSpace(s[0]);
    assert SkipSpaces(s) == s;
    DigitRunOfDigits(s);
  }

  /** Reading back what printf("%04d") wrote gives the number again, for every count that
      the four-character field holds. */
  lemma AtoiFormat4(n: int)
    requires -999 <= n <= 9999
    ensures Atoi(Format4(n)) == n
  {
    if n >= 0 {
      var ds := ZeroPad(Decimal(n), 4);
      assert Format4(n) == ds;
      ZeroPadValue(Decimal(n), 4);
      DigitsValueOfDecimal(n);
      AtoiOfDigits(ds);
    } else {
      var ds := ZeroPad(Decimal(-n), 3);
      var s := "-" + ds;
      assert Format4(n) == s;
      ZeroPadValue(Decimal(-n), 3);
      DigitsValueOfDecimal(-n);
      assert SkipSpaces(s) == s;
      assert s[1..] == ds;
      DigitRunOfDigits(ds);
    }
  }

  /** Distinct counts render to distinct four-character fields. */
  lemma Format4Injective(m: int, n: int)
    requires -999 <= m <= 9999 && -999 <= n <= 9999
    requires Format4(m) == Format4(n)
    ensures m == n
  {
    AtoiFormat4(m);
    AtoiFormat4(n);
  }

  /* ---------------------------------------------------------------- count suffix */

  /** atoi(name + strlen(name) - 4): the count carried by the last four characters. */
  function CountOf(name: string): int
    requires |name| >= 4
  {
    Atoi(name[|name| - 4..])
  }

  /** The name with its last four characters replaced by the "%04d" rendering of n
      (strncpy of all but the last four, then sprintf). */
  function WithCount(name: string, n: int): string
    requires |name| >= 4
  {
    name[..|name| - 4] + Format4(n)
  }

  /** The final node of a chain: a stem, then the four-digit count. */
  function FinalName(stem: string, count: int): string {
    stem + Format4(count)
  }

  /** A final name carries its count, keeps the stem's chain marker, and renaming it to
      another count changes only the last four characters. */
  lemma FinalNameFacts(stem: string, count: int, n: int)
    requires 0 <= count <= 9999
    requires -999 <= n <= 9999
    ensures |FinalName(stem, count)| == |stem| + 4
    ensures CountOf(FinalName(stem, count)) == count
    ensures WithCount(FinalName(stem, count), n) == FinalName(stem, n)
    ensures |FinalName(stem, n)| == |stem| + 4
    ensures IsChainName(stem) ==> IsChainName(FinalName(stem, count))
    ensures n != count ==> FinalName(stem, n) != FinalName(stem, count)
  {
    Format4Length(count);
    Format4Length(n);
    var f := FinalName(stem, count);
    assert f[|f| - 4..] == Format4(count);
    assert f[..|f| - 4] == stem;
    AtoiFormat4(count);
    BasenameAppend(stem, Format4(count));
    if n != count && FinalName(stem, n) == f {
      assert Format4(n) == FinalName(stem, n)[|stem|..];
      Format4Injective(n, count);
    }
  }

  /** A count of 10000 needs five characters; the last four then read back as 0, so the
      chain's count silently wraps to zero. */
  lemma CountPastField(stem: string)
    ensures CountOf(FinalName(stem, 10000)) == 0
  {
    var f := FinalName(stem, 10000);
    assert f[|f| - 4..] == Zeros(4) by {
      DecimalTenThousand();
      assert f == stem + "1" + Zeros(4);
    }
    assert DigitsValue(Zeros(4)) == 0 by {
      DigitsValueLeadingZeros(4, "");
      assert Zeros(4) + "" == Zeros(4);
    }
    AtoiOfDigits(Zeros(4));
  }

  /** 10000 printed in full: a one followed by four zeros. */
  lemma DecimalTenThousand()
    ensures Format4(10000) == "1" + Zeros(4)
  {
    assert Decimal(1) == "1";
    assert Decimal(10) == "10";
    assert Decimal(100) == "100";
    assert Decimal(1000) == "1000";
    assert Decimal(10000) == "10000";
    assert Zeros(4) == "0000";
  }

  /** "%04d" of 2, the count a freshly created chain starts with. */
  lemma Format4Two()
    ensures Format4(2) == "0002"
  {
    assert Decimal(2) == "2";
    assert Zeros(3) == "000";
  }
}

=== FILE: resolver.dfy ===
/** translated_path: the host path a syscall is about to use is replaced by the chain's
    final node when it names an emulated hard link, so that reads and writes through any
    alias reach the shared content. */
module Resolver {
  import opened Errors
  import opened Names
  import opened FileSystem
  import opened Chain

  /** The two-hop shape the resolver recognises: p is a readable link whose target holds a
      '/', has a marked basename, and is itself a readable link. */
  predicate Resolvable(fs: Fs, p: string) {
    && ReadlinkBounded(fs, p).Ok?
    && '/' in ReadlinkBounded(fs, p).value
    && IsChainName(ReadlinkBounded(fs, p).value)
    && ReadlinkBounded(fs, ReadlinkBounded(fs, p).value).Ok?
  }

  /** The path is replaced only by the target of its target, and only when both hops are
      readable links and the first hop's basename is marked; a first hop without any '/'
      (a target relative to the link's own directory) is never followed. In every other
      case the path is kept. */
  function Translate(fs: Fs, p: string): (r: string)
    ensures Resolvable(fs, p) ==> r == fs[fs[p].target].target
    ensures !Resolvable(fs, p) ==> r == p
    ensures r != p ==>
              && p in fs && fs[p].Symlink? && '/' in fs[p].target
              && IsChainName(fs[p].target) && fs[p].target in fs
              && fs[fs[p].target].Symlink?
  {
    match ReadlinkBounded(fs, p)
    case Err(_) => p
    case Ok(path) =>
      if '/' !in path then p
      else if !IsChainName(path) then p
      else match ReadlinkBounded(fs, path)
        case Err(_) => p
        case Ok(path2) => path2
  }

  /** Through an alias of a chain whose intermediate holds a '/', the resolver reaches the
      final node; through the intermediate it reaches nothing, since the final node is not
      a link. */
  lemma TranslateOnChain(fs: Fs, alias: string, inter: string, stem: string, c: int)
    requires ChainAt(fs, alias, inter, stem, c)
    requires '/' in inter
    ensures Translate(fs, alias) == FinalName(stem, c)
    ensures Translate(fs, inter) == inter
  {
    assert ReadlinkBounded(fs, alias) == Ok(inter);
    assert ReadlinkBounded(fs, inter) == Ok(FinalName(stem, c));
  }

  /** The bail-out on a slash-free first hop: a link to an intermediate named relative to
      the link's directory is not resolved, even though the chain behind it is intact. */
  lemma TranslateRelativeAlias(fs: Fs, alias: string, inter: string, stem: string, c: int)
    requires ChainAt(fs, alias, inter, stem, c)
    requires '/' !in inter
    ensures Translate(fs, alias) == alias
  {
    assert ReadlinkBounded(fs, alias) == Ok(inter);
  }

  /** The resolver applied to its own result changes nothing more on a chain: the final
      node is a regular file. */
  lemma TranslateSettles(fs: Fs, alias: string, inter: string, stem: string, c: int)
    requires ChainAt(fs, alias, inter, stem, c)
    ensures Translate(fs, Translate(fs, alias)) == Translate(fs, alias)
  {
    var final := FinalName(stem, c);
    assert ReadlinkBounded(fs, alias) == Ok(inter);
    assert ReadlinkBounded(fs, final).Err?;
    if '/' in inter {
      assert Translate(fs, alias) == final;
    } else {
      assert Translate(fs, alias) == alias;
    }
  }
}

=== FILE: scenarios.dfy ===
/** Whole syscalls as the traced program sees them: the callback's entry work, then the
    kernel's own effect on the (possibly rewritten) call, then the exit patch. */
module Scenarios {
  import opened Errors
  import opened Names
  import FS = FileSystem
  import Chain
  import G = Grower
  import S = Shrinker
  import SP = StatPatch
  import R = Resolver
  import opened Dispatch

  /** A call with its first two registers set and the others empty. */
  function Call2(sysnum: Sysnum, a1: string, a2: string): (c: Call)
    ensures c.sysnum == sysnum && Arg(c, 1) == a1 && Arg(c, 2) == a2
  {
    Call(sysnum, [a1, a2, "", "", "", ""])
  }

  /** The kernel's own effect of the two calls a link or an unlink reaches it as. */
  function Kernel(fs: FS.Fs, call: Call): Result<FS.Fs>
    requires call.sysnum in {Symlink, Unlink}
  {
    if call.sysnum == Symlink then FS.CreateSymlink(fs, Arg(call, 1), Arg(call, 2))
    else FS.Unlink(fs, Arg(call, 1))
  }

  /** link() or unlink() as the traced program sees it: the callback's entry work, then the
      kernel's effect on the call as rewritten. A refusal at either step keeps the map as
      that step found it. */
  function Syscall(fs: FS.Fs, call: Call): FS.Outcome<()>
    requires call.sysnum in {Link, Unlink}
  {
    var e := OnEnter(fs, call);
    match e.result
    case Err(err) => FS.Outcome(e.fs, Err(err))
    case Ok(rewritten) =>
      match Kernel(e.fs, rewritten)
      case Err(err) => FS.Outcome(e.fs, Err(err))
      case Ok(fs2) => FS.Outcome(fs2, Ok(()))
  }

  /* ---------------------------------------------------------------- link on an alias */

  /** link(alias, newpath) on a chain of count c: the chain grows to c + 1 and the call
      becomes symlink(intermediate, newpath). */
  lemma LinkOnAlias(fs: FS.Fs, alias: string, inter: string, stem: string, c: int, newpath: string)
    requires Chain.ChainAt(fs, alias, inter, stem, c)
    requires c < 9999 && FinalName(stem, c + 1) !in fs
    ensures
      var fs1 := (fs - {FinalName(stem, c)})[FinalName(stem, c + 1) := fs[FinalName(stem, c)]]
                   [inter := FS.Symlink(FinalName(stem, c + 1))];
      && OnEnter(fs, Call2(Link, alias, newpath)) == FS.Outcome(fs1, Ok(Call2(Symlink, inter, newpath)))
      && Chain.ChainAt(fs1, alias, inter, stem, c + 1)
  {
    var fs1 := (fs - {FinalName(stem, c)})[FinalName(stem, c + 1) := fs[FinalName(stem, c)]]
                 [inter := FS.Symlink(FinalName(stem, c + 1))];
    GrowOutcome(fs, alias, inter, stem, c, fs1);
    LinkPassesOn(fs, alias, newpath, fs1, inter);
  }

  /** A successful Grow turns link(a, b) into symlink(inter, b) on the map Grow leaves. */
  lemma LinkPassesOn(fs: FS.Fs, a: string, b: string, fs1: FS.Fs, inter: string)
    requires G.Grow(fs, a) == FS.Outcome(fs1, Ok(inter))
    ensures OnEnter(fs, Call2(Link, a, b)) == FS.Outcome(fs1, Ok(Call2(Symlink, inter, b)))
  {
    SymlinkOfLink(a, b, inter);
  }

  /** link(a, b) rewritten around the intermediate is symlink(inter, b). */
  lemma SymlinkOfLink(a: string, b: string, inter: string)
    ensures SymlinkCall(Call2(Link, a, b), inter) == Call2(Symlink, inter, b)
  {
    UpdateFirst(a, inter, b, "");
  }

  /** Overwriting the first of six registers. */
  lemma UpdateFirst<T>(a: T, b: T, x: T, e: T)
    ensures [a, x, e, e, e, e][0 := b] == [b, x, e, e, e, e]
  {
  }

  /** GrowExistingChain's result as one outcome value. */
  lemma GrowOutcome(fs: FS.Fs, alias: string, inter: string, stem: string, c: int, fs1: FS.Fs)
    requires Chain.ChainAt(fs, alias, inter, stem, c)
    requires c < 9999 && FinalName(stem, c + 1) !in fs
    requires fs1 == (fs - {FinalName(stem, c)})[FinalName(stem, c + 1) := fs[FinalName(stem, c)]]
                      [inter := FS.Symlink(FinalName(stem, c + 1))]
    ensures G.Grow(fs, alias) == FS.Outcome(fs1, Ok(inter))
    ensures Chain.ChainAt(fs1, alias, inter, stem, c + 1)
  {
    G.GrowExistingChain(fs, alias, inter, stem, c);
  }

  /** The kernel's symlink(inter, newpath) gives a chain one more alias; the old aliases
      are untouched. */
  lemma NewAlias(fs: FS.Fs, alias: string, inter: string, stem: string, c: int, newpath: string)
    requires Chain.ChainAt(fs, alias, inter, stem, c)
    requires FS.Fits(newpath) && newpath !in fs
    ensures FS.CreateSymlink(fs, inter, newpath) == Ok(fs[newpath := FS.Symlink(inter)])
    ensures Chain.ChainAt(fs[newpath := FS.Symlink(inter)], newpath, inter, stem, c)
    ensures Chain.ChainAt(fs[newpath := FS.Symlink(inter)], alias, inter, stem, c)
  {
    assert FS.CreateSymlink(fs, inter, newpath) == Ok(fs[newpath := FS.Symlink(inter)]) by {
      ChainNameLength(inter);
    }
    Chain.ChainAtAfterAdd(fs, alias, inter, stem, c, newpath, FS.Symlink(inter));
    Chain.NewLinkIsAlias(fs, alias, inter, stem, c, newpath);
  }

  /** The new name is free in the map a count increase leaves. */
  lemma FreshAfterRecount(fs: FS.Fs, final: string, newFinal: string, inter: string, newpath: string,
                          fs1: FS.Fs)
    requires final in fs && inter in fs && newpath !in fs && newpath != newFinal
    requires fs1 == (fs - {final})[newFinal := fs[final]][inter := FS.Symlink(newFinal)]
    ensures newpath !in fs1 && newFinal in fs1
  {
  }

  /** unlink(newpath) on the alias the link created: the chain drops back to count c, and
      the kernel then removes the alias itself, which gives back the map before the link. */
  lemma UnlinkNewAlias(fs: FS.Fs, alias: string, inter: string, stem: string, c: int, newpath: string,
                       fs1: FS.Fs)
    requires Chain.ChainAt(fs, alias, inter, stem, c)
    requires 1 <= c < 9999 && FinalName(stem, c + 1) !in fs
    requires FS.Fits(newpath) && newpath !in fs && newpath != FinalName(stem, c + 1)
    requires fs1 == (fs - {FinalName(stem, c)})[FinalName(stem, c + 1) := fs[FinalName(stem, c)]]
                      [inter := FS.Symlink(FinalName(stem, c + 1))]
    requires Chain.ChainAt(fs1, alias, inter, stem, c + 1)
    ensures Syscall(fs1[newpath := FS.Symlink(inter)], Call2(Unlink, newpath, "")) == FS.Outcome(fs, Ok(()))
  {
    var final := FinalName(stem, c);
    var newFinal := FinalName(stem, c + 1);
    var fs2 := fs1[newpath := FS.Symlink(inter)];
    var m := (fs2 - {newFinal})[final := fs2[newFinal]][inter := FS.Symlink(final)];
    var u := Call2(Unlink, newpath, "");
    NewAliasBeforeUnlink(fs, alias, inter, stem, c, newpath, fs1);
    assert FinalName(stem, c + 1 - 1) == final;
    UnlinkEnter(fs2, newpath, inter, stem, c + 1, m);
    S.RecountBack(fs, alias, inter, stem, c, fs1);
    FreshAfterRecount(fs, final, newFinal, inter, newpath, fs1);
    DropNewAlias(fs, inter, final, newFinal, newpath, fs1, m);
    assert Kernel(m, u) == FS.Unlink(m, newpath);
  }

  /** The map after the link and the kernel's symlink: newpath enters the chain of count
      c + 1, and the name for count c is still free. */
  lemma NewAliasBeforeUnlink(fs: FS.Fs, alias: string, inter: string, stem: string, c: int, newpath: string,
                             fs1: FS.Fs)
    requires Chain.ChainAt(fs, alias, inter, stem, c)
    requires 1 <= c < 9999 && FinalName(stem, c + 1) !in fs
    requires FS.Fits(newpath) && newpath !in fs && newpath != FinalName(stem, c + 1)
    requires fs1 == (fs - {FinalName(stem, c)})[FinalName(stem, c + 1) := fs[FinalName(stem, c)]]
                      [inter := FS.Symlink(FinalName(stem, c + 1))]
    requires Chain.ChainAt(fs1, alias, inter, stem, c + 1)
    ensures Chain.ChainAt(fs1[newpath := FS.Symlink(inter)], newpath, inter, stem, c + 1)
    ensures FinalName(stem, c) !in fs1[newpath := FS.Symlink(inter)]
  {
    var final := FinalName(stem, c);
    var newFinal := FinalName(stem, c + 1);
    var fs2 := fs1[newpath := FS.Symlink(inter)];
    assert Chain.ChainAt(fs2, newpath, inter, stem, c + 1) by {
      FreshAfterRecount(fs, final, newFinal, inter, newpath, fs1);
      NewAlias(fs1, alias, inter, stem, c + 1, newpath);
    }
    assert final !in fs2 by {
      S.RecountBack(fs, alias, inter, stem, c, fs1);
      ShrinkNewAlias(fs, inter, stem, c, newpath, fs1, fs2);
    }
  }

  /** unlink(p) whose count drop succeeds reaches the kernel as it was, on the map the drop
      left. */
  lemma UnlinkPassesOn(fs: FS.Fs, p: string, m: FS.Fs)
    requires S.Shrink(fs, p) == FS.Outcome(m, Ok(()))
    ensures OnEnter(fs, Call2(Unlink, p, "")) == FS.Outcome(m, Ok(Call2(Unlink, p, "")))
  {
  }

  /** link(alias, newpath) with the kernel's symlink: the chain grows and newpath becomes a
      link to the intermediate. */
  lemma LinkSyscall(fs: FS.Fs, alias: string, inter: string, stem: string, c: int, newpath: string)
    requires Chain.ChainAt(fs, alias, inter, stem, c)
    requires c < 9999 && FinalName(stem, c + 1) !in fs
    requires FS.Fits(newpath) && newpath !in fs && newpath != FinalName(stem, c + 1)
    ensures
      var fs1 := (fs - {FinalName(stem, c)})[FinalName(stem, c + 1) := fs[FinalName(stem, c)]]
                   [inter := FS.Symlink(FinalName(stem, c + 1))];
      && Syscall(fs, Call2(Link, alias, newpath)) == FS.Outcome(fs1[newpath := FS.Symlink(inter)], Ok(()))
      && Chain.ChainAt(fs1, alias, inter, stem, c + 1)
  {
    var final := FinalName(stem, c);
    var newFinal := FinalName(stem, c + 1);
    var fs1 := (fs - {final})[newFinal := fs[final]][inter := FS.Symlink(newFinal)];
    var s := Call2(Symlink, inter, newpath);
    assert OnEnter(fs, Call2(Link, alias, newpath)) == FS.Outcome(fs1, Ok(s))
           && Chain.ChainAt(fs1, alias, inter, stem, c + 1) by {
      LinkOnAlias(fs, alias, inter, stem, c, newpath);
    }
    assert Kernel(fs1, s) == Ok(fs1[newpath := FS.Symlink(inter)]) by {
      FreshAfterRecount(fs, final, newFinal, inter, newpath, fs1);
      NewAlias(fs1, alias, inter, stem, c + 1, newpath);
    }
  }

  /** The old final name is still free once the new alias exists. */
  lemma ShrinkNewAlias(fs: FS.Fs, inter: string, stem: string, c: int, newpath: string, fs1: FS.Fs, fs2: FS.Fs)
    requires FinalName(stem, c) in fs && FinalName(stem, c) !in fs1 && newpath !in fs
    requires fs2 == fs1[newpath := FS.Symlink(inter)]
    ensures FinalName(stem, c) !in fs2
  {
  }

  /** Removing the new alias from the map the shrink left gives back the map before the
      link. */
  lemma DropNewAlias(fs: FS.Fs, inter: string, final: string, newFinal: string, newpath: string,
                     fs1: FS.Fs, m: FS.Fs)
    requires FS.Fits(newpath) && newpath !in fs
    requires newpath != newFinal && newpath != final && newpath != inter
    requires newFinal in fs1
    requires (fs1 - {newFinal})[final := fs1[newFinal]][inter := FS.Symlink(final)] == fs
    requires m == (fs1[newpath := FS.Symlink(inter)] - {newFinal})
                    [final := fs1[newpath := FS.Symlink(inter)][newFinal]][inter := FS.Symlink(final)]
    ensures newpath in m && m[newpath] == FS.Symlink(inter)
    ensures FS.Unlink(m, newpath) == Ok(fs)
  {
    var back := (fs1 - {newFinal})[final := fs1[newFinal]][inter := FS.Symlink(final)];
    assert fs1[newpath := FS.Symlink(inter)][newFinal] == fs1[newFinal];
    assert (m - {newpath}).Keys == back.Keys;
    forall q | q in back
      ensures (m - {newpath})[q] == back[q]
    {
    }
    assert m - {newpath} == back;
  }

  /** A link request through an alias followed by unlink() of the new name, each with the
      kernel's own effect, gives back the filesystem it started from. */
  lemma LinkThenUnlinkRestores(fs: FS.Fs, alias: string, inter: string, stem: string, c: int, newpath: string)
    requires Chain.ChainAt(fs, alias, inter, stem, c)
    requires 1 <= c < 9999 && FinalName(stem, c + 1) !in fs
    requires FS.Fits(newpath) && newpath !in fs && newpath != FinalName(stem, c + 1)
    ensures
      var l := Syscall(fs, Call2(Link, alias, newpath));
      && l.result.Ok?
      && Syscall(l.fs, Call2(Unlink, newpath, "")) == FS.Outcome(fs, Ok(()))
  {
    var fs1 := (fs - {FinalName(stem, c)})[FinalName(stem, c + 1) := fs[FinalName(stem, c)]]
                 [inter := FS.Symlink(FinalName(stem, c + 1))];
    LinkSyscall(fs, alias, inter, stem, c, newpath);
    UnlinkNewAlias(fs, alias, inter, stem, c, newpath, fs1);
  }

  /** A link request through an alias, with the kernel's symlink, raises the count by one
      and adds exactly the new name to the chain's aliases: count and alias set move
      together. */
  lemma LinkAddsOneAlias(fs: FS.Fs, alias: string, inter: string, stem: string, c: int, newpath: string)
    requires Chain.ChainAt(fs, alias, inter, stem, c)
    requires c < 9999 && FinalName(stem, c + 1) !in fs
    requires FS.Fits(newpath) && newpath !in fs && newpath != FinalName(stem, c + 1)
    ensures
      var l := Syscall(fs, Call2(Link, alias, newpath));
      && l.result.Ok?
      && Chain.ChainAt(l.fs, newpath, inter, stem, c + 1)
      && Chain.Aliases(l.fs, inter) == Chain.Aliases(fs, inter) + {newpath}
  {
    var final := FinalName(stem, c);
    var newFinal := FinalName(stem, c + 1);
    var fs1 := (fs - {final})[newFinal := fs[final]][inter := FS.Symlink(newFinal)];
    LinkSyscall(fs, alias, inter, stem, c, newpath);
    FreshAfterRecount(fs, final, newFinal, inter, newpath, fs1);
    NewAlias(fs1, alias, inter, stem, c + 1, newpath);
    Chain.RecountFacts(fs, alias, inter, stem, c, c + 1);
    Chain.RecountKeepsAliases(fs, inter, final, newFinal);
    Chain.NewLinkAddsAlias(fs1, inter, newpath);
  }

  /** unlink() of an alias of a chain of count c >= 2, with the kernel's own removal, lowers
      the count by one and takes exactly that alias out of the chain's aliases; every alias
      left still reaches the chain, now of count c - 1. */
  lemma UnlinkDropsOneAlias(fs: FS.Fs, p: string, inter: string, stem: string, c: int)
    requires Chain.ChainAt(fs, p, inter, stem, c)
    requires c >= 2 && FinalName(stem, c - 1) !in fs
    ensures
      var u := Syscall(fs, Call2(Unlink, p, ""));
      && u.result.Ok?
      && Chain.Aliases(u.fs, inter) == Chain.Aliases(fs, inter) - {p}
      && forall q :: q in Chain.Aliases(u.fs, inter) && FS.Fits(q) ==>
           Chain.ChainAt(u.fs, q, inter, stem, c - 1)
  {
    var final := FinalName(stem, c);
    var newFinal := FinalName(stem, c - 1);
    var m := (fs - {final})[newFinal := fs[final]][inter := FS.Symlink(newFinal)];
    var u := Call2(Unlink, p, "");
    UnlinkEnter(fs, p, inter, stem, c, m);
    AfterUnlink(fs, p, inter, stem, c, m);
    assert Kernel(m, u) == FS.Unlink(m, p);
  }

  /** The kernel's removal of the alias from the map the count drop left. */
  lemma AfterUnlink(fs: FS.Fs, p: string, inter: string, stem: string, c: int, m: FS.Fs)
    requires Chain.ChainAt(fs, p, inter, stem, c)
    requires c >= 2 && FinalName(stem, c - 1) !in fs
    requires m == (fs - {FinalName(stem, c)})[FinalName(stem, c - 1) := fs[FinalName(stem, c)]]
                    [inter := FS.Symlink(FinalName(stem, c - 1))]
    requires Chain.ChainAt(m, p, inter, stem, c - 1)
    ensures FS.Unlink(m, p) == Ok(m - {p})
    ensures Chain.Aliases(m - {p}, inter) == Chain.Aliases(fs, inter) - {p}
    ensures forall q :: q in Chain.Aliases(m - {p}, inter) && FS.Fits(q) ==>
              Chain.ChainAt(m - {p}, q, inter, stem, c - 1)
  {
    AliasesAfterDecrement(fs, p, inter, stem, c, m);
    Chain.UnlinkDropsAlias(m, inter, p);
    RemainingAliases(m, p, inter, stem, c - 1);
  }

  /** The entry half of unlink() on an alias of a chain of count c >= 2. */
  lemma UnlinkEnter(fs: FS.Fs, p: string, inter: string, stem: string, c: int, m: FS.Fs)
    requires Chain.ChainAt(fs, p, inter, stem, c)
    requires c >= 2 && FinalName(stem, c - 1) !in fs
    requires m == (fs - {FinalName(stem, c)})[FinalName(stem, c - 1) := fs[FinalName(stem, c)]]
                    [inter := FS.Symlink(FinalName(stem, c - 1))]
    ensures OnEnter(fs, Call2(Unlink, p, "")) == FS.Outcome(m, Ok(Call2(Unlink, p, "")))
    ensures Chain.ChainAt(m, p, inter, stem, c - 1)
  {
    S.ShrinkChainDecrements(fs, p, inter, stem, c);
    UnlinkPassesOn(fs, p, m);
  }

  /** The count drop keeps the chain's aliases. */
  lemma AliasesAfterDecrement(fs: FS.Fs, p: string, inter: string, stem: string, c: int, m: FS.Fs)
    requires Chain.ChainAt(fs, p, inter, stem, c)
    requires c >= 2 && FinalName(stem, c - 1) !in fs
    requires m == (fs - {FinalName(stem, c)})[FinalName(stem, c - 1) := fs[FinalName(stem, c)]]
                    [inter := FS.Symlink(FinalName(stem, c - 1))]
    ensures Chain.Aliases(m, inter) == Chain.Aliases(fs, inter)
  {
    Chain.RecountFacts(fs, p, inter, stem, c, c - 1);
    Chain.RecountKeepsAliases(fs, inter, FinalName(stem, c), FinalName(stem, c - 1));
  }

  /** Taking one alias away leaves a chain behind every other alias. */
  lemma RemainingAliases(m: FS.Fs, p: string, inter: string, stem: string, c: int)
    requires Chain.ChainAt(m, p, inter, stem, c)
    ensures forall q :: q in Chain.Aliases(m - {p}, inter) && FS.Fits(q) ==>
              Chain.ChainAt(m - {p}, q, inter, stem, c)
  {
    forall q | q in Chain.Aliases(m - {p}, inter) && FS.Fits(q)
      ensures Chain.ChainAt(m - {p}, q, inter, stem, c)
    {
      OtherAlias(m, p, q, inter, stem, c);
    }
  }

  /** Another link to the intermediate still reaches the chain once p is gone. */
  lemma OtherAlias(m: FS.Fs, p: string, q: string, inter: string, stem: string, c: int)
    requires Chain.ChainAt(m, p, inter, stem, c)
    requires q in m && q != p && m[q] == FS.Symlink(inter) && FS.Fits(q)
    ensures Chain.ChainAt(m - {p}, q, inter, stem, c)
  {
    var final := FinalName(stem, c);
    assert p != inter && p != final by {
      assert m[p].target == inter && m[inter].target == final && m[final].Regular?;
    }
  }


  /* ---------------------------------------------------------------- first link */

  /** link(a, b) on a regular file a, when the chosen names are free: a and b become two
      aliases of a fresh chain of count 2, and stat() or lstat() through either of them, on the path the
      resolver hands to the kernel, reports the final node with link count 2. Any other call
      through either alias is redirected to the final node when the intermediate's name
      holds a '/'. */
  lemma FirstLinkThenStat(fs: FS.Fs, a: string, b: string)
    requires FS.Fits(a) && a in fs && fs[a].Regular? && !IsChainName(a)
    requires ChainNamesFit(IntermediateBase(a))
    requires
      var base := IntermediateBase(a);
      var inter := base + Format4(G.Probe(fs, base, 1));
      inter !in fs && inter + ".0002" !in fs && b != inter && b != inter + ".0002"
    requires FS.Fits(b) && b !in fs && !IsChainName(b)
    ensures
      var base := IntermediateBase(a);
      var inter := base + Format4(G.Probe(fs, base, 1));
      var final := inter + ".0002";
      var o1 := OnEnter(fs, Call2(Link, a, b));
      && o1.result == Ok(Call2(Symlink, inter, b))
      && FS.CreateSymlink(o1.fs, inter, b).Ok?
      && var fs2 := FS.CreateSymlink(o1.fs, inter, b).value;
         && OnExit(fs2, Call2(Stat, OnTranslatedPath(fs2, Stat, a), ""), 0, Err(Invalid)) == Ok(SP.Replace(final, 2))
         && OnExit(fs2, Call2(Stat, OnTranslatedPath(fs2, Stat, b), ""), 0, Err(Invalid)) == Ok(SP.Replace(final, 2))
         && OnExit(fs2, Call2(Lstat, OnTranslatedPath(fs2, Lstat, a), ""), 0, Err(Invalid)) == Ok(SP.Replace(final, 2))
         && OnExit(fs2, Call2(Lstat, OnTranslatedPath(fs2, Lstat, b), ""), 0, Err(Invalid)) == Ok(SP.Replace(final, 2))
         && ('/' in inter ==>
               OnTranslatedPath(fs2, Other, a) == final && OnTranslatedPath(fs2, Other, b) == final)
  {
    var base := IntermediateBase(a);
    var inter := base + Format4(G.Probe(fs, base, 1));
    var final := inter + ".0002";
    var fs1 := (fs - {a})[final := fs[a]][inter := FS.Symlink(final)][a := FS.Symlink(inter)];
    FirstLinkEnter(fs, a, b);
    FreshAfterFirstLink(fs, a, inter, final, b, fs1);
    SecondAliasThenStat(fs1, a, b, inter);
  }

  /** The new name is free in the map a first link leaves. */
  lemma FreshAfterFirstLink(fs: FS.Fs, a: string, inter: string, final: string, b: string, fs1: FS.Fs)
    requires b !in fs && b != inter && b != final && a in fs
    requires fs1 == (fs - {a})[final := fs[a]][inter := FS.Symlink(final)][a := FS.Symlink(inter)]
    ensures b !in fs1
  {
  }

  /** The kernel's half of the rewritten link, then stat() through both aliases. */
  lemma SecondAliasThenStat(fs1: FS.Fs, a: string, b: string, inter: string)
    requires Chain.ChainAt(fs1, a, inter, inter + ".", 2)
    requires FS.Fits(b) && b !in fs1 && !IsChainName(a) && !IsChainName(b)
    ensures FS.CreateSymlink(fs1, inter, b) == Ok(fs1[b := FS.Symlink(inter)])
    ensures
      var fs2 := fs1[b := FS.Symlink(inter)];
      var final := inter + ".0002";
      && OnExit(fs2, Call2(Stat, OnTranslatedPath(fs2, Stat, a), ""), 0, Err(Invalid)) == Ok(SP.Replace(final, 2))
      && OnExit(fs2, Call2(Stat, OnTranslatedPath(fs2, Stat, b), ""), 0, Err(Invalid)) == Ok(SP.Replace(final, 2))
      && OnExit(fs2, Call2(Lstat, OnTranslatedPath(fs2, Lstat, a), ""), 0, Err(Invalid)) == Ok(SP.Replace(final, 2))
      && OnExit(fs2, Call2(Lstat, OnTranslatedPath(fs2, Lstat, b), ""), 0, Err(Invalid)) == Ok(SP.Replace(final, 2))
      && ('/' in inter ==>
            OnTranslatedPath(fs2, Other, a) == final && OnTranslatedPath(fs2, Other, b) == final)
  {
    NewAlias(fs1, a, inter, inter + ".", 2, b);
    G.FreshFinalName(inter);
    StatBothAliases(fs1[b := FS.Symlink(inter)], a, b, inter, inter + ".0002");
  }

  /** The entry half of a first link: Grow's first-link branch, then the rewrite into
      symlink(2). */
  lemma FirstLinkEnter(fs: FS.Fs, a: string, b: string)
    requires FS.Fits(a) && a in fs && fs[a].Regular?
    requires ChainNamesFit(IntermediateBase(a))
    requires
      var base := IntermediateBase(a);
      var inter := base + Format4(G.Probe(fs, base, 1));
      inter !in fs && inter + ".0002" !in fs
    ensures
      var base := IntermediateBase(a);
      var inter := base + Format4(G.Probe(fs, base, 1));
      var final := inter + ".0002";
      var fs1 := (fs - {a})[final := fs[a]][inter := FS.Symlink(final)][a := FS.Symlink(inter)];
      && OnEnter(fs, Call2(Link, a, b)) == FS.Outcome(fs1, Ok(Call2(Symlink, inter, b)))
      && Chain.ChainAt(fs1, a, inter, inter + ".", 2)
  {
    var base := IntermediateBase(a);
    var inter := base + Format4(G.Probe(fs, base, 1));
    var final := inter + ".0002";
    var fs1 := (fs - {a})[final := fs[a]][inter := FS.Symlink(final)][a := FS.Symlink(inter)];
    G.GrowFirstLinkOnFile(fs, a);
    assert G.Grow(fs, a) == FS.Outcome(fs1, Ok(inter));
    LinkPassesOn(fs, a, b, fs1, inter);
  }

  /** stat() and lstat() through two unmarked aliases of a chain of count 2, after path
      translation, report the final node with count 2; the resolver takes both to the final
      node. */
  lemma StatBothAliases(fs: FS.Fs, a: string, b: string, inter: string, final: string)
    requires Chain.ChainAt(fs, a, inter, inter + ".", 2) && Chain.ChainAt(fs, b, inter, inter + ".", 2)
    requires !IsChainName(a) && !IsChainName(b)
    requires FinalName(inter + ".", 2) == final
    ensures OnExit(fs, Call2(Stat, OnTranslatedPath(fs, Stat, a), ""), 0, Err(Invalid)) == Ok(SP.Replace(final, 2))
    ensures OnExit(fs, Call2(Stat, OnTranslatedPath(fs, Stat, b), ""), 0, Err(Invalid)) == Ok(SP.Replace(final, 2))
    ensures OnExit(fs, Call2(Lstat, OnTranslatedPath(fs, Lstat, a), ""), 0, Err(Invalid)) == Ok(SP.Replace(final, 2))
    ensures OnExit(fs, Call2(Lstat, OnTranslatedPath(fs, Lstat, b), ""), 0, Err(Invalid)) == Ok(SP.Replace(final, 2))
    ensures '/' in inter ==>
              OnTranslatedPath(fs, Other, a) == final && OnTranslatedPath(fs, Other, b) == final
  {
    StatAlias(fs, Stat, a, inter, final);
    StatAlias(fs, Stat, b, inter, final);
    StatAlias(fs, Lstat, a, inter, final);
    StatAlias(fs, Lstat, b, inter, final);
    if '/' in inter {
      TranslateAlias(fs, a, inter, inter + ".", 2);
      TranslateAlias(fs, b, inter, inter + ".", 2);
    }
  }

  /** A call that does not keep its path reaches the final node through an alias. */
  lemma TranslateAlias(fs: FS.Fs, a: string, inter: string, stem: string, c: int)
    requires Chain.ChainAt(fs, a, inter, stem, c) && '/' in inter
    ensures OnTranslatedPath(fs, Other, a) == FinalName(stem, c)
  {
    R.TranslateOnChain(fs, a, inter, stem, c);
  }

  /** A path-based stat call on one unmarked alias of a chain of count 2, on the path the
      resolver leaves in its register: the final node when the intermediate holds a '/',
      the alias itself otherwise. Both report the final node with count 2. */
  lemma StatAlias(fs: FS.Fs, sysnum: Sysnum, a: string, inter: string, final: string)
    requires sysnum in {Stat, Stat64, Lstat, Lstat64}
    requires Chain.ChainAt(fs, a, inter, inter + ".", 2) && !IsChainName(a)
    requires FinalName(inter + ".", 2) == final
    ensures OnExit(fs, Call2(sysnum, OnTranslatedPath(fs, sysnum, a), ""), 0, Err(Invalid))
              == Ok(SP.Replace(final, 2))
  {
    AliasPathNlink(fs, sysnum, a, inter, final);
    OnExitOnPath(fs, sysnum, OnTranslatedPath(fs, sysnum, a));
  }

  /** The path translation leaves for a stat call on an alias fits and is patched with the
      final node and count 2. */
  lemma AliasPathNlink(fs: FS.Fs, sysnum: Sysnum, a: string, inter: string, final: string)
    requires sysnum in {Stat, Stat64, Lstat, Lstat64}
    requires Chain.ChainAt(fs, a, inter, inter + ".", 2) && !IsChainName(a)
    requires FinalName(inter + ".", 2) == final
    ensures var p := OnTranslatedPath(fs, sysnum, a);
      FS.Fits(p) && SP.Nlink(fs, p) == Ok(SP.Replace(final, 2))
  {
    SP.NlinkOnChain(fs, a, inter, inter + ".", 2);
    if '/' in inter {
      R.TranslateOnChain(fs, a, inter, inter + ".", 2);
    } else {
      R.TranslateRelativeAlias(fs, a, inter, inter + ".", 2);
    }
  }

  /** A successful path-based stat call whose path fits is patched as Nlink says for it. */
  lemma OnExitOnPath(fs: FS.Fs, sysnum: Sysnum, p: string)
    requires sysnum in {Stat, Stat64, Lstat, Lstat64} && FS.Fits(p)
    ensures OnExit(fs, Call2(sysnum, p, ""), 0, Err(Invalid)) == SP.Nlink(fs, p)
  {
    assert StatPath(Call2(sysnum, p, ""), Err(Invalid)) == Ok(p);
  }
}

=== FILE: shrink.dfy ===
/** Link Shrinker: decrement_link_count. Runs before unlink(), unlinkat() and before a
    rename() whose destination is about to be overwritten. */
module Shrinker {
  import opened Errors
  import opened Names
  import opened FileSystem
  import opened Chain
  import opened Grower

  /** decrement_link_count. A path too long for the PATH_MAX buffer it is read into is
      refused with ENAMETOOLONG. A path that lstat cannot see, that is not a symbolic link, or
      whose target's basename lacks the marker, is left alone and 0 is returned. Otherwise
      the chain's count drops by one: above zero the final node is renamed and the
      intermediate re-pointed, at zero both are unlinked. The alias itself is never touched
      here; the intercepted syscall removes it afterwards. The steps after the readlinks
      report the raw -1 of the failing call, which reads as EPERM. */
  function Shrink(fs: Fs, path: string): (o: Outcome<()>)
    ensures !Fits(path) ==> o == Outcome(fs, Err(NameTooLong))
    ensures Fits(path) && path !in fs ==> o == Outcome(fs, Ok(()))
    ensures Fits(path) && path in fs && !fs[path].Symlink? ==> o == Outcome(fs, Ok(()))
    ensures (Fits(path) && path in fs && fs[path].Symlink? && Fits(fs[path].target)
             && !IsChainName(fs[path].target)) ==> o == Outcome(fs, Ok(()))
    ensures o.result.Err? ==> o.result.error in {NotPermitted, NameTooLong, UndefinedBehaviour}
  {
    if !Fits(path) then Outcome(fs, Err(NameTooLong))
    else match Lstat(fs, path)
      case Err(_) => Outcome(fs, Ok(()))
      case Ok(node) =>
        if !node.Symlink? then Outcome(fs, Ok(()))
        else match ReadlinkBounded(fs, path)
          case Err(e) => Outcome(fs, Err(e))
          case Ok(inter) =>
            if !IsChainName(inter) then Outcome(fs, Ok(())) else ShrinkChain(fs, inter)
  }

  /** The part of decrement_link_count after the alias has been recognised. On success the
      intermediate named a final node; above count 1 that node moved to the name of the
      count below and the intermediate was re-pointed to it, otherwise both were removed, and
      nothing else changed. */
  function ShrinkChain(fs: Fs, inter: string): (o: Outcome<()>)
    ensures o.result.Err? ==> o.result.error in {NotPermitted, NameTooLong, UndefinedBehaviour}
    ensures o.result.Ok? ==>
              && inter in fs && fs[inter].Symlink? && |fs[inter].target| >= 4
              && var final := fs[inter].target;
                 var n := CountOf(final) - 1;
                 && (n > 0 ==> final in fs
                               && o.fs == (fs - {final})[WithCount(final, n) := fs[final]]
                                            [inter := Symlink(WithCount(final, n))])
                 && (n <= 0 ==> o.fs == fs - {inter, final})
  {
    match ReadlinkBounded(fs, inter)
    case Err(e) => Outcome(fs, Err(e))
    case Ok(final) =>
      if |final| < 4 then Outcome(fs, Err(UndefinedBehaviour))
      else
        var count := CountOf(final) - 1;
        if count > 0 then
          var o := MoveFinal(fs, inter, final, WithCount(final, count));
          Outcome(o.fs, if o.result.Ok? then Ok(()) else Err(NotPermitted))
        else
          Dissolve(fs, inter, final)
  }

  /** The end of a chain: the intermediate, then the final node, are unlinked. Either
      failure reports the raw -1, i.e. EPERM, and keeps what was done before it. */
  function Dissolve(fs: Fs, inter: string, final: string): (o: Outcome<()>)
    ensures o.result.Ok? <==>
              Fits(inter) && inter in fs && !fs[inter].Dir?
              && Fits(final) && final in fs && !fs[final].Dir? && final != inter
    ensures o.result.Ok? ==> o.fs == fs - {inter, final}
    ensures o.result.Err? ==> o.result.error == NotPermitted
  {
    match Unlink(fs, inter)
    case Err(_) => Outcome(fs, Err(NotPermitted))
    case Ok(fs1) =>
      match Unlink(fs1, final)
      case Err(_) => Outcome(fs1, Err(NotPermitted))
      case Ok(fs2) =>
        assert fs2 == fs - {inter, final};
        Outcome(fs2, Ok(()))
  }

  /** On an alias Shrink works on the chain its target names. */
  lemma ShrinkOnAlias(fs: Fs, alias: string, inter: string)
    requires Fits(alias) && alias in fs && fs[alias] == Symlink(inter)
    requires Fits(inter) && IsChainName(inter)
    ensures Shrink(fs, alias) == ShrinkChain(fs, inter)
  {
  }

  /** Removing an alias of a chain of count c >= 2 renames the final node to count c - 1,
      re-points the intermediate, leaves the alias and every other path alone, and keeps
      the chain invariant. */
  lemma ShrinkChainDecrements(fs: Fs, alias: string, inter: string, stem: string, c: int)
    requires ChainAt(fs, alias, inter, stem, c)
    requires c >= 2 && FinalName(stem, c - 1) !in fs
    ensures
      var final := FinalName(stem, c);
      var newFinal := FinalName(stem, c - 1);
      var m := (fs - {final})[newFinal := fs[final]][inter := Symlink(newFinal)];
      && Shrink(fs, alias) == Outcome(m, Ok(()))
      && m[alias] == fs[alias]
      && ChainAt(m, alias, inter, stem, c - 1)
  {
    var final := FinalName(stem, c);
    var newFinal := FinalName(stem, c - 1);
    var m := (fs - {final})[newFinal := fs[final]][inter := Symlink(newFinal)];
    MoveFinalOnChain(fs, alias, inter, stem, c, c - 1);
    ShrinkChainRecount(fs, inter, final, m);
    ShrinkOnAlias(fs, alias, inter);
  }

  /** ShrinkChain when the count stays above zero: it is the count change of MoveFinal. */
  lemma ShrinkChainRecount(fs: Fs, inter: string, final: string, m: Fs)
    requires ReadlinkBounded(fs, inter) == Ok(final) && |final| >= 4 && CountOf(final) - 1 > 0
    requires MoveFinal(fs, inter, final, WithCount(final, CountOf(final) - 1)) == Outcome(m, Ok(()))
    ensures ShrinkChain(fs, inter) == Outcome(m, Ok(()))
  {
  }

  /** Removing an alias of a chain whose count is 1 (or 0) dissolves the chain: the
      intermediate and the final node are unlinked and nothing else changes, the alias
      included. */
  lemma ShrinkChainDissolves(fs: Fs, alias: string, inter: string, stem: string, c: int)
    requires ChainAt(fs, alias, inter, stem, c)
    requires c <= 1
    ensures Shrink(fs, alias) == Outcome(fs - {inter, FinalName(stem, c)}, Ok(()))
    ensures alias in fs - {inter, FinalName(stem, c)}
  {
    var final := FinalName(stem, c);
    DissolveFacts(fs, alias, inter, stem, c);
    RemovePairKeeps(fs, alias, inter, final);
    ShrinkChainUnlinks(fs, inter, final);
    ShrinkOnAlias(fs, alias, inter);
  }

  /** Taking two other keys out of a map keeps a key. */
  lemma RemovePairKeeps<K, V>(m: map<K, V>, k: K, a: K, b: K)
    requires k in m && k != a && k != b
    ensures k in m - {a, b}
  {
  }

  /** What ShrinkChainUnlinks needs, read off a chain of count 0 or 1. */
  lemma DissolveFacts(fs: Fs, alias: string, inter: string, stem: string, c: int)
    requires ChainAt(fs, alias, inter, stem, c)
    requires c <= 1
    ensures ReadlinkBounded(fs, inter) == Ok(FinalName(stem, c))
    ensures |FinalName(stem, c)| >= 4 && CountOf(FinalName(stem, c)) - 1 <= 0
    ensures FinalName(stem, c) in fs && !fs[FinalName(stem, c)].Dir? && FinalName(stem, c) != inter
    ensures alias != inter && alias != FinalName(stem, c)
    ensures Fits(alias) && alias in fs && fs[alias] == Symlink(inter) && Fits(inter) && IsChainName(inter)
  {
    var final := FinalName(stem, c);
    FinalNameFacts(stem, c, c);
    assert final != inter by {
      assert fs[final].Regular? && fs[inter].Symlink?;
    }
    assert alias != inter by {
      assert fs[alias].target == inter && fs[inter].target == final;
    }
    assert alias != final by {
      assert fs[alias].Symlink?;
    }
  }

  /** ShrinkChain when the count reaches zero: both chain nodes are unlinked. */
  lemma ShrinkChainUnlinks(fs: Fs, inter: string, final: string)
    requires ReadlinkBounded(fs, inter) == Ok(final) && |final| >= 4 && CountOf(final) - 1 <= 0
    requires final in fs && !fs[final].Dir? && final != inter
    ensures ShrinkChain(fs, inter) == Outcome(fs - {inter, final}, Ok(()))
  {
    assert ShrinkChain(fs, inter) == Dissolve(fs, inter, final);
  }

  /** A link request followed by a removal through the same alias gives back the very
      filesystem it started from, the final node's name included. */
  lemma GrowThenShrinkRestores(fs: Fs, alias: string, inter: string, stem: string, c: int)
    requires ChainAt(fs, alias, inter, stem, c)
    requires 1 <= c < 9999 && FinalName(stem, c + 1) !in fs
    ensures Grow(fs, alias).result == Ok(inter)
    ensures Shrink(Grow(fs, alias).fs, alias) == Outcome(fs, Ok(()))
  {
    GrowExistingChain(fs, alias, inter, stem, c);
    ShrinkUndoesRecount(fs, alias, inter, stem, c, Grow(fs, alias).fs);
  }

  /** Shrink on the map a count increase left behind moves the final node back. */
  lemma ShrinkUndoesRecount(fs: Fs, alias: string, inter: string, stem: string, c: int, fs1: Fs)
    requires ChainAt(fs, alias, inter, stem, c)
    requires 1 <= c < 9999 && FinalName(stem, c + 1) !in fs
    requires fs1 == (fs - {FinalName(stem, c)})[FinalName(stem, c + 1) := fs[FinalName(stem, c)]]
                      [inter := Symlink(FinalName(stem, c + 1))]
    requires ChainAt(fs1, alias, inter, stem, c + 1)
    ensures Shrink(fs1, alias) == Outcome(fs, Ok(()))
  {
    RecountBack(fs, alias, inter, stem, c, fs1);
    ShrinkChainDecrements(fs1, alias, inter, stem, c + 1);
  }

  /** After a count increase the old final name is free again, and moving the final node
      back to it re-points the intermediate at it and yields the map before the increase. */
  lemma RecountBack(fs: Fs, alias: string, inter: string, stem: string, c: int, fs1: Fs)
    requires ChainAt(fs, alias, inter, stem, c)
    requires 0 <= c < 9999 && FinalName(stem, c + 1) !in fs
    requires fs1 == (fs - {FinalName(stem, c)})[FinalName(stem, c + 1) := fs[FinalName(stem, c)]]
                      [inter := Symlink(FinalName(stem, c + 1))]
    ensures FinalName(stem, c) !in fs1
    ensures
      var final := FinalName(stem, c);
      var newFinal := FinalName(stem, c + 1);
      (fs1 - {newFinal})[final := fs1[newFinal]][inter := Symlink(final)] == fs
  {
    var final := FinalName(stem, c);
    var newFinal := FinalName(stem, c + 1);
    FinalNameFacts(stem, c, c + 1);
    assert final != inter by {
      assert fs[final].Regular? && fs[inter].Symlink?;
    }
    RemovedStaysOut(fs, final, newFinal, fs[final], inter, Symlink(newFinal));
    RestoreLookups(fs, inter, final, newFinal);
  }

  /** A removed key stays out of the map when two other keys are set afterwards. */
  lemma RemovedStaysOut<K, V>(m: map<K, V>, k: K, a: K, va: V, b: K, vb: V)
    requires k != a && k != b
    ensures k !in (m - {k})[a := va][b := vb]
  {
  }

  /** Moving the final node to a free name and back, re-pointing the intermediate each
      time, is the identity on a map where the intermediate pointed at the final node. */
  lemma RestoreLookups(fs: Fs, inter: string, final: string, newFinal: string)
    requires inter in fs && fs[inter] == Symlink(final) && final in fs && newFinal !in fs
    requires final != inter
    ensures
      var fs1 := (fs - {final})[newFinal := fs[final]][inter := Symlink(newFinal)];
      (fs1 - {newFinal})[final := fs1[newFinal]][inter := Symlink(final)] == fs
  {
    var fs1 := (fs - {final})[newFinal := fs[final]][inter := Symlink(newFinal)];
    var fs2 := (fs1 - {newFinal})[final := fs1[newFinal]][inter := Symlink(final)];
    assert newFinal != inter;
    assert fs2.Keys == fs.Keys;
    forall q | q in fs
      ensures fs2[q] == fs[q]
    {
    }
  }
}

=== FILE: statpatch.dfy ===
/** The link-count patch of handle_sysexit_end: after a successful stat-family call on a
    path that belongs to an emulated hard link, the caller's stat buffer is overwritten with
    the status of the chain's final node, whose link count is read from the last four
    characters of that node's name. */
module StatPatch {
  import opened Errors
  import opened Names
  import opened FileSystem
  import opened Chain

  /** What happens to the caller's stat buffer: left as the kernel filled it, or replaced
      by the status of `source` with its link count set to `nlink`. */
  datatype Patch = Unchanged | Replace(source: string, nlink: int)

  /** The path behind a descriptor as /proc shows it loses a trailing " (deleted)". The
      suffix test starts ten characters before the end, so a shorter path makes the C
      compare memory before its buffer. */
  function StripDeleted(path: string): (r: Result<string>)
    ensures r.Err? <==> |path| < |DeletedSuffix|
    ensures r.Ok? ==> r.value == path || r.value + DeletedSuffix == path
    ensures r.Ok? && path[|path| - |DeletedSuffix|..] == DeletedSuffix ==> r.value + DeletedSuffix == path
    ensures r.Ok? && r.value != path ==> |r.value| + |DeletedSuffix| == |path|
  {
    if |path| < |DeletedSuffix| then Err(UndefinedBehaviour)
    else
      var cut := |path| - |DeletedSuffix|;
      if path[cut..] == DeletedSuffix then
        assert path[..cut] + path[cut..] == path;
        Ok(path[..cut])
      else Ok(path)
  }

  /** A path is reported with the patched status when it is (a) marked and a symbolic
      link: an intermediate; (b) marked and not a symbolic link: a final node; or (c) a
      symbolic link to a marked target: an alias. Everything else passes through. lstat
      failing on the path leaves the mode the C inspects unset. */
  function Nlink(fs: Fs, original: string): (r: Result<Patch>)
    ensures Lstat(fs, original).Err? ==> r == Err(UndefinedBehaviour)
    ensures Lstat(fs, original).Ok? && !IsChainName(original) && !fs[original].Symlink? ==>
              r == Ok(Unchanged)
    ensures r.Ok? && r.value.Replace? ==>
              && Fits(r.value.source) && r.value.source in fs
              && |r.value.source| >= 4 && r.value.nlink == CountOf(r.value.source)
    ensures r.Ok? && r.value.Replace? ==>
              IsChainName(original)
              || (original in fs && fs[original].Symlink? && IsChainName(fs[original].target))
    ensures r.Err? ==> r.error in {UndefinedBehaviour, NotPermitted, NameTooLong}
  {
    match Lstat(fs, original)
    case Err(_) => Err(UndefinedBehaviour)
    case Ok(node) =>
      if IsChainName(original) then
        if node.Symlink? then FromIntermediate(fs, original) else FromFinal(fs, original)
      else if !node.Symlink? then Ok(Unchanged)
      else match ReadlinkBounded(fs, original)
        case Err(e) => Err(e)
        case Ok(inter) => if !IsChainName(inter) then Ok(Unchanged) else FromIntermediate(fs, inter)
  }

  /** The intermediate_proc label: the final node is what the intermediate names. */
  function FromIntermediate(fs: Fs, inter: string): (r: Result<Patch>)
    ensures r.Ok? ==>
              && inter in fs && fs[inter].Symlink?
              && var final := fs[inter].target;
                 && Fits(final) && final in fs && |final| >= 4
                 && r.value == Replace(final, CountOf(final))
    ensures r.Err? ==> r.error in {UndefinedBehaviour, NotPermitted, NameTooLong}
  {
    match ReadlinkBounded(fs, inter)
    case Err(e) => Err(e)
    case Ok(final) => FromFinal(fs, final)
  }

  /** The final_proc label: the final node must exist, and its link count is the number
      its last four characters spell. lstat's raw -1 is returned as is, i.e. EPERM. */
  function FromFinal(fs: Fs, final: string): (r: Result<Patch>)
    ensures r.Ok? <==> Fits(final) && final in fs && |final| >= 4
    ensures r.Ok? ==> r.value == Replace(final, CountOf(final))
    ensures r.Err? ==> r.error == (if Fits(final) && final in fs then UndefinedBehaviour else NotPermitted)
  {
    match Lstat(fs, final)
    case Err(_) => Err(NotPermitted)
    case Ok(_) => if |final| < 4 then Err(UndefinedBehaviour) else Ok(Replace(final, CountOf(final)))
  }

  /* ---------------------------------------------------------------- on a chain */

  /** On a chain of count c, every name involved reports the final node's status with link
      count c: the alias (when its own name is unmarked), the intermediate and the final
      node itself. */
  lemma NlinkOnChain(fs: Fs, alias: string, inter: string, stem: string, c: int)
    requires ChainAt(fs, alias, inter, stem, c)
    ensures !IsChainName(alias) ==> Nlink(fs, alias) == Ok(Replace(FinalName(stem, c), c))
    ensures Nlink(fs, inter) == Ok(Replace(FinalName(stem, c), c))
    ensures Nlink(fs, FinalName(stem, c)) == Ok(Replace(FinalName(stem, c), c))
  {
    var final := FinalName(stem, c);
    FinalNameFacts(stem, c, c);
    NlinkOfFinal(fs, final);
    NlinkOfIntermediate(fs, inter, final);
    if !IsChainName(alias) {
      NlinkOfAlias(fs, alias, inter, final);
    }
  }

  /** A marked name that is not a symbolic link counts as a final node. */
  lemma NlinkOfFinal(fs: Fs, final: string)
    requires Fits(final) && final in fs && !fs[final].Symlink? && IsChainName(final)
    requires |final| >= 4
    ensures Nlink(fs, final) == Ok(Replace(final, CountOf(final)))
  {
  }

  /** A marked symbolic link counts as an intermediate: the count is read off its target. */
  lemma NlinkOfIntermediate(fs: Fs, inter: string, final: string)
    requires Fits(inter) && inter in fs && fs[inter] == Symlink(final) && IsChainName(inter)
    requires Fits(final) && final in fs && |final| >= 4
    ensures Nlink(fs, inter) == Ok(Replace(final, CountOf(final)))
  {
    assert FromIntermediate(fs, inter) == FromFinal(fs, final);
  }

  /** An unmarked link to a marked target counts as an alias: two readlinks lead to the
      final node. */
  lemma NlinkOfAlias(fs: Fs, alias: string, inter: string, final: string)
    requires Fits(alias) && alias in fs && fs[alias] == Symlink(inter) && !IsChainName(alias)
    requires Fits(inter) && inter in fs && fs[inter] == Symlink(final) && IsChainName(inter)
    requires Fits(final) && final in fs && |final| >= 4
    ensures Nlink(fs, alias) == Ok(Replace(final, CountOf(final)))
  {
    assert ReadlinkBounded(fs, alias) == Ok(inter);
    assert FromIntermediate(fs, inter) == FromFinal(fs, final);
  }

  /** A marked alias is taken for an intermediate: the count is then read off the
      intermediate's own name, one hop too early. */
  lemma NlinkOnMarkedAlias(fs: Fs, alias: string, inter: string)
    requires Fits(alias) && alias in fs && fs[alias] == Symlink(inter) && IsChainName(alias)
    requires Fits(inter) && inter in fs && |inter| >= 4
    ensures Nlink(fs, alias) == Ok(Replace(inter, CountOf(inter)))
  {
    assert FromIntermediate(fs, alias) == FromFinal(fs, inter);
  }

  /** An unmarked symbolic link whose target is unmarked is left alone. */
  lemma NlinkPassesForeignLink(fs: Fs, p: string)
    requires Fits(p) && p in fs && fs[p].Symlink? && !IsChainName(p)
    requires Fits(fs[p].target) && !IsChainName(fs[p].target)
    ensures Nlink(fs, p) == Ok(Unchanged)
  {
    assert ReadlinkBounded(fs, p) == Ok(fs[p].target);
  }
}
